=== FILE: README.md ===
# Tridice rules engine, modelled in Dafny

Tridice is a board game played with tetrahedral dice on a board of
triangular cells. `cell.ts` holds its rules engine. This project models that
engine's core in Dafny:

- **DiceFaces** is the orientation state machine of one die. It is a
  five-slot array `[left, top, right, up, down]`, where slots 3 and 4 form the
  "null zone" holding a 0 and the hidden face. The model covers tipping
  (`move`), spinning (`rotate`), swapping into the null zone
  (`moveNumberToNullZone`), random tumbling (`randomMove`, `simulatedRoll`)
  and drawing a fresh arrangement (`roll`).
- **Planner** is the speculative movement planner of a `Dice`: tentative
  steps on a copy of the faces, each recorded with the direction that undoes
  it, against a budget equal to the committed top face (`tryMoveTo`,
  `undoMove`, `resetTemporaryMoves`, plus `rotate`, `roll` and
  `simulatedRoll` of the die).
- **Cells** covers board cells and their neighbour links: placeholder
  resolution with optional reciprocation (`setNeighbor`), and the cell-id
  generator (`cellIDIterator`).
- **Table** holds cell occupancy and moving a die between cells: the `dice`
  setter, `diceFits`, `removeDice`, `Dice.moveTo` and `fixTemporaryFaces`.
- **Players** is player bookkeeping: the constructor, `loseDice`,
  `placeDice` and `getDice`.

Object references become ids:

- A cell's neighbour or content is the id of a cell or a die.
- A die's current cell is a cell id.
- The board is a `map` from ids to records.

Operations that mutate and may then throw return an `Effect`: the state they
leave behind, together with `Ok` or the `Err` they throw. A throw part-way
through therefore keeps the changes made before it, as in the code.
Randomness becomes explicit parameters:

- `randomMove` gets the drawn direction.
- `simulatedRoll` gets one `Tumble` per round.
- `roll` gets the drawn null slot and the four drawn indices.

Where the code behaves differently from what its names suggest, the model follows the code:

- `rotate` ignores its argument. The die's pointing direction alone decides
  the spin, so six spins, not two, restore a die, and a left spin then a
  right spin does not.
- Every tip flips the pointing direction, horizontal tips included.
- `undoMove` returns the cell of the step it pops, which is the cell the die
  speculatively stood on, not the one it returns to.
- `tryMoveTo` refuses a missing neighbour and a not-yet-linked neighbour with
  the same `InvalidDirection` error.
- `Dice.rotate` keeps `moveCount` and the recorded steps. `roll` and
  `simulatedRoll` keep the recorded steps, so calling them during a walk
  breaks the budget.
- `fixTemporaryFaces` is not atomic. It overwrites the committed faces before
  moving, and a refused move leaves them overwritten, with the die taken off
  its old cell.
- The comment on `Dice.moveTo` says occupancy is ignored. The `dice` setter it
  calls refuses an occupied cell, and the model follows the setter.
- `setNeighbor` on a neighbour slot that holds `undefined` throws a
  TypeError, because its error message reads `.id` of `undefined`. The model
  reports this as `UndefinedAccess`, not `NeighborAlreadySet`.

## Model

| member | source | states |
|---|---|---|
| `Types.Inverse` | cell.ts:47-53 | the inverse of a direction is a different direction on the same axis |
| `Types.InverseIsInvolution` | cell.ts:47-53 | the direction inverter is an involution without fixed points that keeps each direction on its axis |
| `DiceFaces.NullIndex` | cell.ts:113-116 | the null index is slot 3 or 4; it is the down slot whenever that slot holds the 0, and whenever either null-zone slot holds a 0 the null index names a slot holding 0 |
| `DiceFaces.PointingDirection` | cell.ts:64-67 | a legal die points up exactly when its 0 is in the down slot, and down exactly when its 0 is in the up slot |
| `DiceFaces.Hidden` | cell.ts:118-122 | the hidden face of a legal die is non-zero and differs from the three visible faces |
| `DiceFaces.Top` | cell.ts:76-78 | the top face of a legal die is a real face and not the hidden one |
| `DiceFaces.HiddenIndex` | cell.ts:118-122 | the hidden face sits in the other null-zone slot |
| `DiceFaces.CanMoveUp` | cell.ts:124-126 | a legal die can tip up exactly when it points down |
| `DiceFaces.CanMoveDown` | cell.ts:127-129 | a legal die can tip down exactly when it points up |
| `DiceFaces.WithRealFaces` | cell.ts:101-103 | the `realFaces` setter keeps both null-zone slots, so the null index and the pointing direction stay the same |
| `DiceFaces.IndexOf` | cell.ts:158 | `indexOf` returns -1 exactly when the value is absent, and otherwise the first slot holding it |
| `DiceFaces.MoveNumberToNullZone` | cell.ts:154-164 | on a legal die it returns the hidden face, keeps the visible slots, writes the new value over the old 0 and zeroes the hidden face's slot, so the null zone swaps sides |
| `DiceFaces.Move` | cell.ts:166-194 | a tip fails exactly for down with a face in the down slot or up with a face in the up slot, with the matching error; a legal tip keeps the die legal, flips its pointing and moves the faces as the reference description `Tipped` says |
| `DiceFaces.TipRight` | cell.ts:166-194 | tipping right keeps a legal die legal, flips its pointing and moves the faces as `Tipped` describes for right |
| `DiceFaces.TipLeft` | cell.ts:166-194 | the same for tipping left |
| `DiceFaces.TipVertical` | cell.ts:166-194 | a vertical tip keeps a legal die legal, flips its pointing and moves the faces as `Tipped` describes for both up and down |
| `DiceFaces.Rotate` | cell.ts:131-152 | a spin keeps the die legal and its top face, flips the pointing, and trades the hidden face with the right face (pointing up) or the left face (pointing down) |
| `DiceFaces.DefaultIsWellFormed` | cell.ts:56-58 | the default arrangement is legal, points up and has top face 2 |
| `DiceFaces.WellFormedIsPermutation` | cell.ts:56-58 | a die is legal exactly when its visible faces are non-zero and the five slots hold 0 to 4 once each |
| `DiceFaces.Determined` | cell.ts:38-45 | a legal die is fixed by its visible faces, hidden face and pointing |
| `DiceFaces.VerticalLegality` | cell.ts:124-129 | down is legal exactly when the die points up and up exactly when it points down, so two tips down in a row are refused |
| `DiceFaces.MoveRoundTrip` | cell.ts:166-194 | tipping back the inverse direction restores all five slots |
| `DiceFaces.RotateIgnoresSpin` | cell.ts:131-135 | the spin argument never changes the result |
| `DiceFaces.RotateHasOrderSix` | cell.ts:131-152 | six spins restore a legal die, and two or three spins never do |
| `DiceFaces.RandomMove` | cell.ts:200-209 | a random tip keeps the die legal and flips its pointing |
| `DiceFaces.Tumbled` | cell.ts:218-220 | one round of tumbling keeps the die legal and keeps its pointing exactly when the round spins |
| `DiceFaces.SimulatedRoll` | cell.ts:216-222 | tumbling keeps the die legal |
| `DiceFaces.SimulatedRollFlips` | cell.ts:216-222 | a simulated roll keeps the pointing exactly when the rounds taken make an even number of flips, each round flipping once for its tip and once more if it spins |
| `DiceFaces.SimulatedRollParity` | cell.ts:216-222 | after a simulated roll the pointing is unchanged exactly when the rounds plus the spins taken are even |
| `DiceFaces.PlaceKeeps` | cell.ts:233-238 | `Place`, the placing loop of `roll` written as a recursive function, never writes a slot that is not free; this and the four lemmas below are the contract of `Place` |
| `DiceFaces.PlaceFirst` | cell.ts:233-238 | the first draw puts the current face number into the free slot it selects |
| `DiceFaces.PlaceAbove` | cell.ts:233-238 | every free slot receives a value no smaller than the current face number |
| `DiceFaces.PlaceLater` | cell.ts:233-238 | every free slot the first draw does not select receives a larger value |
| `DiceFaces.PlaceDistinct` | cell.ts:233-238 | different free slots receive different values |
| `DiceFaces.FreeSlots` | cell.ts:226-232 | after the 0 is placed, the free positions are the four other slots, each once, in ascending order |
| `DiceFaces.PlacedIsLegal` | cell.ts:224-242 | with the 0 already at the drawn null slot, any draws in range make the placing loop produce a legal arrangement that keeps the 0 there |
| `DiceFaces.Roll` | cell.ts:224-242 | every draw yields a legal arrangement with its 0 at the drawn null-zone slot |
| `DiceFaces.PicksFor` | cell.ts:233-238 | for any target that holds the remaining faces at the free slots there are draws in range whose first one selects the slot where the target holds the current face |
| `DiceFaces.PicksForMatch` | cell.ts:233-238 | the draws `PicksFor` computes select, face by face, the free slot where the target holds that face |
| `DiceFaces.PlaceFollowsPicks` | cell.ts:233-238 | with draws that select, face by face, the slot where the target holds that face, the placing loop writes the target's value into every free slot |
| `DiceFaces.RollReproduces` | cell.ts:224-242 | for every legal arrangement, its own null slot and the draws `PicksFor` computes make `roll` produce exactly that arrangement |
| `DiceFaces.RollReachesEvery` | cell.ts:224-242 | every legal arrangement is a possible outcome of `roll`, so together with `Roll` the outcomes are exactly the legal arrangements |
| `Cells.GetNeighbor` | cell.ts:516-518 | on a board whose links stay inside it, a linked neighbour is a cell of the board |
| `Cells.Link` | cell.ts:520-539 | resolving a neighbour succeeds exactly when the slot is a placeholder carrying the new cell's id; a missing, linked or mismatched slot gives its own error with the board unchanged; only that slot changes, and links stay inside the board |
| `Cells.SetNeighbor` | cell.ts:520-550 | succeeds exactly when the slot and, for a reciprocated left or right link, the opposite slot of the neighbour hold the matching placeholders; each failing slot gives `UndefinedAccess` when missing, `NeighborAlreadySet` when linked and `InvalidNeighbor` for another id; a failure changes no slot other than the first one, which survives a failed reciprocal link; only those two slots can change |
| `Cells.SetThenGet` | cell.ts:516-548 | after a successful `setNeighbor` the slot for that direction reads back the new neighbour, and a reciprocated left or right link reads back the original cell from the neighbour's opposite slot |
| `Cells.CellIdIterator` | cell.ts:3-9 | the generator yields 11, then 21 to 24, 31 to 35 and 41 to 46, in that order |
| `Planner.TopFace` | cell.ts:278-280 | a legal die's top face is a real face, never the 0 |
| `Planner.CurrentPointingDirection` | cell.ts:286-288 | a legal die points up exactly when its committed 0 is in the down slot, and down exactly when it is in the up slot |
| `Planner.TemporaryPointingDirection` | cell.ts:290-292 | the same for the speculative faces |
| `Planner.CanFinishMoving` | cell.ts:348-350 | under the planner invariant a walk can be committed exactly when the number of recorded steps equals the top face |
| `Planner.NextNeighbor` | cell.ts:369-374 | the cell a step aims at is a cell of the board when it is linked, and with no recorded steps and no current cell there is none |
| `Planner.NewDice` | cell.ts:267-276 | a new die is on no cell, has the default faces and a copy of them, a budget equal to its top face, and satisfies the planner invariant |
| `Planner.TryMoveTo` | cell.ts:362-396 | a step is refused with no budget left, with no linked cell that way, or when the speculative faces cannot tip, in which case it throws the tip's own error; a refusal changes nothing; a step spends one unit, records the cell reached with the inverse direction, tips only the speculative faces, and keeps the die's id and owner |
| `Planner.UndoMove` | cell.ts:398-409 | with no steps it throws `NoMoves` and changes nothing; otherwise it pops the newest step even if the tip back fails, and succeeds exactly when the speculative faces can tip back the recorded way; on success the speculative faces are the tipped-back ones, that step's cell is returned and one unit is refunded; on failure it throws the tip's error with faces and budget unchanged; id and owner are kept |
| `Planner.ResetTemporaryMoves` | cell.ts:316-320 | abandoning a walk restores the speculative faces and the full budget, and restores the planner invariant |
| `Planner.Rotate` | cell.ts:294-297 | spinning a legal die moves its faces as the reference description `Spun` says, so it keeps its top face and flips its pointing; the speculative faces are resynchronised; cell, id, owner, budget and steps are kept |
| `Planner.Roll` | cell.ts:415-419 | rolling yields legal faces and a budget equal to the new top face, and keeps the recorded steps, id and owner |
| `Planner.SimulatedRoll` | cell.ts:421-425 | the same for a simulated roll, from a legal die |
| `Planner.RemoveFromCell` | cell.ts:322-324 | the die rests on no cell and nothing else about it changes |
| `Planner.UnwindAppend` | cell.ts:398-409 | undoing an appended run of steps undoes the newer steps first and then the older ones from where that left off, and an undo that fails stops the whole unwind with its error |
| `Planner.PushUnwinds` | cell.ts:388-395 | recording a step whose undo direction tips the new speculative faces back to the old ones leaves unchanged where the recorded steps unwind to |
| `Planner.TryMoveToKeepsInvariant` | cell.ts:362-396 | a step keeps both arrangements legal, the budget balanced and the recorded steps unwinding to the committed faces |
| `Planner.UndoMoveKeepsInvariant` | cell.ts:398-409 | under the invariant an undo after a step always succeeds and keeps the invariant |
| `Planner.TryThenUndo` | cell.ts:362-409 | an undo right after a step restores the die exactly and returns the cell the step reached |
| `Planner.TryMoveToAdvances` | cell.ts:369-394 | after a step the next step leads on from the cell just reached, reading that cell's slot for the new direction |
| `Planner.FirstStepFromCell` | cell.ts:362-394 | with no steps yet, budget left and a legal tip, a step from the cell the die rests on succeeds and records the neighbour linked that way |
| `Planner.Step` | cell.ts:316-409 | any planning command keeps the die's cells on the board |
| `Planner.Walk` | cell.ts:316-409 | any sequence of planning commands keeps the die's cells on the board |
| `Planner.WalkKeepsInvariant` | cell.ts:316-409 | through any sequence of steps, undos and resets the invariant holds, the committed faces stay the same and the budget stays between 0 and the top face |
| `Planner.RollDuringWalkBreaksBudget` | cell.ts:415-425 | rolling while steps are recorded always breaks the budget |
| `Table.SetDice` | cell.ts:482-495 | an occupied cell refuses every assignment, null included, with `AlreadyFull`; an empty cell refuses a die that does not fit with `DiceDoesntFit`; a refusal changes nothing; otherwise only the cell's content changes |
| `Table.RemoveDice` | cell.ts:506-514 | an empty cell throws `EmptyCell` with nothing changed; otherwise the cell is emptied, the die it held is returned and its record changes exactly as `removeFromCell` changes it, no other die or cell changes, and consistency is kept |
| `Table.DiceFits` | cell.ts:501-504 | a legal die fits an upward cell exactly when its 0 is in the down slot, and a downward cell exactly when it is not |
| `Table.Occupy` | cell.ts:309-314 | the cell takes the die exactly when it is empty and the die fits, otherwise it throws `AlreadyFull` or `DiceDoesntFit` with nothing changed; on success the die rests there with no recorded steps; no other die or cell changes |
| `Table.MoveTo` | cell.ts:309-314 | keeps consistency even when it throws; in a consistent world it succeeds exactly when the target is free or holds this die and the die fits, and otherwise throws `AlreadyFull` for another die's cell or `DiceDoesntFit`; only the moved die's cell and recorded steps can change, the steps only on success, where the die rests on the target with none left; no other die changes, and no cell other than the target and the old cell; a refused move in a consistent world has already taken the die off its old cell and left that cell empty |
| `Table.FixTemporaryFaces` | cell.ts:334-346 | refused with `HasMovesLeft` and nothing changed while budget remains, and with `UndefinedAccess` when no step is recorded; otherwise the speculative faces become the committed ones even if the commit then fails, and apart from the faces only the die's cell, steps and budget can change, steps and budget only on success; in a consistent world it succeeds exactly when the newest step's cell is free or holds this die and fits the speculative pointing, and otherwise throws `AlreadyFull` or `DiceDoesntFit`; on success the die rests on that cell with no steps and a budget equal to the new top face; no other die changes, and no cell other than the old and the new one; a refused relocation in a consistent world has already taken the die off its old cell and left that cell empty |
| `Table.SetThenRemove` | cell.ts:482-514 | removing a die just placed into an empty cell returns the die and the world as it was |
| `Table.SpentBudgetHasSteps` | cell.ts:334-346 | under the planner invariant a spent budget means between one and four steps are recorded |
| `Table.FixCommitsWalk` | cell.ts:334-346 | committing a finished walk into a free cell that fits succeeds and leaves the planner invariant and consistency intact |
| `Table.FixIsNotAtomic` | cell.ts:334-346 | when the newest step's cell is held by another die, or points the other way, the commit throws `AlreadyFull` or `DiceDoesntFit` respectively, with the faces already overwritten, the die taken off its old cell, that cell left empty and the steps kept |
| `Players.Roster` | cell.ts:562-565 | the created dice are exactly ids `10p` to `10p + n - 1`, each a new die owned by the player, `n` of them |
| `Players.NewPlayer` | cell.ts:559-569 | a new player owns exactly the dice ids `10p` to `10p + n - 1`, none placed or lost, and each created die is a fresh die of that id owned by the player, so it rests on no cell with default faces, no steps and budget 2 |
| `Players.LoseDice` | cell.ts:571-574 | the die leaves the board and joins the lost dice, nothing else changes |
| `Players.PlaceDice` | cell.ts:576-578 | the die joins the dice on the board, nothing else changes |
| `Players.GetDice` | cell.ts:580-583 | the lookup succeeds exactly when the die `10p + num` is owned |
| `Players.GetDiceFindsRoster` | cell.ts:559-583 | a new player finds its `num`-th die exactly for `0 <= num < n`, and different indices give different dice |
| `Players.DefaultRoster` | cell.ts:559-565 | with the default count of four dice a new player owns exactly ids `10p` to `10p + 3` |
| `Players.PlacementBookkeeping` | cell.ts:571-578 | losing keeps board and lost dice apart; placing does so unless the die was lost; losing absorbs an earlier placement and a repeated loss |

## Left out

- Randomness: `randint`, `Math.random`, `randomRotation`. The drawn values
  are parameters, so no statement is made about their distribution.
- `simulatedRoll(count)` with a non-integer or negative count: the model
  takes one `Tumble` per round.
- Error messages and `throwCustomError`: the model keeps only which error is
  thrown, not its text or the mutated `message` of the shared error object.
- `toString`, `facesString`, `simplified`, `neighborsIDs`, `neighborhood`,
  `state`, `copy` and the `left`, `right`, `up` and `down` face getters are
  presentation or plain slot reads. The `realFaces` getter is likewise not
  modelled; its setter is `WithRealFaces`. The `top` getter is `Top`.
- Default arguments: `setNeighbor`'s `doReciprocate = true` becomes an
  explicit `reciprocate` parameter. The default `numberOfDice = 4` of the
  `Player` constructor is the constant `DefaultDiceCount`.
- `Dice.ERROR.CellNotSet`: declared, never thrown.
- The `top` entry of `faceDirectionInverter`: no movement direction uses it.
- JavaScript object identity and aliasing: ids stand for references, and
  `copy` becomes value semantics.
- `DiceFaces` built from an array of any length: only five-slot arrays of
  values 0 to 4 are modelled.
- Dice ids as strings: `playerNumber * 10 + index` is kept as an integer.
  Its decimal rendering is injective, so lookups agree.
- The `Cell` constructor and the board layout that builds cells: the model
  starts from a given board.

=== FILE: cells.dfy ===
/** Board cells (class `Cell`): the neighbourhood each cell keeps and the
    placeholder-resolving link operation, over a board that maps cell ids to
    cell records instead of holding object references. */
module Cells {
  import opened Types

  /** How many rows the board has (`ROLL_COUNT`). */
  const RowCount := 4

  /** A neighbour slot: nothing there (`undefined`, the board's edge), the id
      of a cell not linked yet (a number), or the linked cell. */
  datatype NeighborRef = Missing | Placeholder(expected: int) | Linked(cell: CellID)

  datatype Neighborhood = Neighborhood(up: NeighborRef, down: NeighborRef, left: NeighborRef, right: NeighborRef)
  {
    function Get(d: Direction): NeighborRef {
      match d
      case Up => up
      case Down => down
      case Left => left
      case Right => right
    }

    function Set(d: Direction, n: NeighborRef): (r: Neighborhood)
      ensures r.Get(d) == n
      ensures forall e :: e != d ==> r.Get(e) == Get(e)
    {
      match d
      case Up => this.(up := n)
      case Down => this.(down := n)
      case Left => this.(left := n)
      case Right => this.(right := n)
    }
  }

  /** A cell: its id, neighbours, the die it holds if any, and where it points. */
  datatype CellRec = CellRec(id: CellID, neighbors: Neighborhood, content: Option<DiceId>, pointing: Pointing)

  type Board = map<CellID, CellRec>

  /** Every cell is stored under its own id and every link names a cell of
      the board, as object references always do. */
  ghost predicate Valid(b: Board) {
    && (forall c :: c in b ==> b[c].id == c)
    && (forall c, d :: c in b && b[c].neighbors.Get(d).Linked? ==> b[c].neighbors.Get(d).cell in b)
  }

  /** `getNeighbor`: on a valid board a linked neighbour is a cell of the
      board. */
  function GetNeighbor(b: Board, c: CellID, d: Direction): (r: NeighborRef)
    requires c in b
    ensures Valid(b) && r.Linked? ==> r.cell in b
  {
    b[c].neighbors.Get(d)
  }

  /** `setNeighbor` without reciprocation: resolve the placeholder in
      direction `d` of cell `c` to the cell `n`. A slot that is already linked
      is refused, and so is a missing one (building the error message reads
      `.id` of `undefined`); a placeholder must carry `n`'s id. */
  function Link(b: Board, c: CellID, d: Direction, n: CellID): (r: Effect<Board, ()>)
    requires c in b && n in b
    ensures b[c].neighbors.Get(d).Missing? ==> r == Effect(b, Err(UndefinedAccess))
    ensures b[c].neighbors.Get(d).Linked? ==> r == Effect(b, Err(NeighborAlreadySet))
    ensures b[c].neighbors.Get(d).Placeholder? && b[c].neighbors.Get(d).expected != b[n].id ==>
              r == Effect(b, Err(InvalidNeighbor))
    ensures r.result.Ok? <==> b[c].neighbors.Get(d) == Placeholder(b[n].id)
    ensures r.state.Keys == b.Keys
    ensures forall k :: k in b ==>
              && r.state[k].id == b[k].id
              && r.state[k].content == b[k].content
              && r.state[k].pointing == b[k].pointing
    ensures r.result.Ok? ==> r.state[c].neighbors.Get(d) == Linked(n)
    ensures forall k, e :: k in b && (k != c || e != d) ==>
              r.state[k].neighbors.Get(e) == b[k].neighbors.Get(e)
    ensures Valid(b) ==> Valid(r.state)
  {
    var current := b[c].neighbors.Get(d);
    if current.Missing? then Effect(b, Err(UndefinedAccess))
    else if current.Linked? then Effect(b, Err(NeighborAlreadySet))
    else if current.expected != b[n].id then Effect(b, Err(InvalidNeighbor))
    else
      var linked := b[c := b[c].(neighbors := b[c].neighbors.Set(d, Linked(n)))];
      assert Valid(b) ==> Valid(linked) by {
        if Valid(b) {
          forall k, e | k in linked && linked[k].neighbors.Get(e).Linked?
            ensures linked[k].neighbors.Get(e).cell in linked
          {
            if k == c && e != d {
              assert linked[k].neighbors.Get(e) == b[k].neighbors.Get(e);
            }
          }
        }
      }
      Effect(linked, Ok(()))
  }

  /** `setNeighbor`: link `c` to `n` in direction `d` and, for left and right
      when asked to, let `n` link back the opposite way. The reciprocal link
      may fail after the first one is made, so a failure does not always
      leave the board as it was. */
  function SetNeighbor(b: Board, c: CellID, d: Direction, n: CellID, reciprocate: bool): (r: Effect<Board, ()>)
    requires c in b && n in b
    ensures r.state.Keys == b.Keys
    ensures forall k :: k in b ==>
              && r.state[k].id == b[k].id
              && r.state[k].content == b[k].content
              && r.state[k].pointing == b[k].pointing
    ensures b[c].neighbors.Get(d) != Placeholder(b[n].id) ==> r.state == b && r.result.Err?
    ensures b[c].neighbors.Get(d) == Placeholder(b[n].id) ==>
              r.state[c].neighbors.Get(d) == Linked(n)
    ensures r.result.Ok? <==>
              && b[c].neighbors.Get(d) == Placeholder(b[n].id)
              && (reciprocate && !IsVertical(d) ==> b[n].neighbors.Get(Inverse(d)) == Placeholder(b[c].id))
    ensures r.result.Ok? && reciprocate && !IsVertical(d) ==>
              r.state[n].neighbors.Get(Inverse(d)) == Linked(c)
    ensures forall k, e :: k in b && r.state[k].neighbors.Get(e) != b[k].neighbors.Get(e) ==>
              && b[k].neighbors.Get(e).Placeholder?
              && ((k == c && e == d) || (reciprocate && !IsVertical(d) && k == n && e == Inverse(d)))
    ensures b[c].neighbors.Get(d).Missing? ==> r.result == Err(UndefinedAccess)
    ensures b[c].neighbors.Get(d).Linked? ==> r.result == Err(NeighborAlreadySet)
    ensures b[c].neighbors.Get(d).Placeholder? && b[c].neighbors.Get(d).expected != b[n].id ==>
              r.result == Err(InvalidNeighbor)
    ensures b[c].neighbors.Get(d) == Placeholder(b[n].id) && reciprocate && !IsVertical(d) ==>
              var back := b[n].neighbors.Get(Inverse(d));
              && (back.Missing? ==> r.result == Err(UndefinedAccess))
              && (back.Linked? ==> r.result == Err(NeighborAlreadySet))
              && (back.Placeholder? && back.expected != b[c].id ==> r.result == Err(InvalidNeighbor))
    ensures r.result.Err? ==>
              forall k, e :: k in b && (k != c || e != d) ==> r.state[k].neighbors.Get(e) == b[k].neighbors.Get(e)
    ensures Valid(b) ==> Valid(r.state)
  {
    var first := Link(b, c, d, n);
    if first.result.Err? then first
    else if !IsVertical(d) && reciprocate then
      assert first.state[n].neighbors.Get(Inverse(d)) == b[n].neighbors.Get(Inverse(d));
      Link(first.state, n, Inverse(d), c)
    else first
  }

  /** After a successful `setNeighbor` the slot reads back the new
      neighbour, and a reciprocated left or right link reads back the
      original cell from the neighbour's opposite slot. */
  lemma SetThenGet(b: Board, c: CellID, d: Direction, n: CellID, reciprocate: bool)
    requires c in b && n in b
    requires SetNeighbor(b, c, d, n, reciprocate).result.Ok?
    ensures GetNeighbor(SetNeighbor(b, c, d, n, reciprocate).state, c, d) == Linked(n)
    ensures reciprocate && !IsVertical(d) ==>
              GetNeighbor(SetNeighbor(b, c, d, n, reciprocate).state, n, Inverse(d)) == Linked(c)
  {
  }

  /** The cell ids of one row: `a1` alone for the first row, `a1` to
      `a(a+2)` for the others. */
  function RowIds(a: int): seq<CellID>
    requires 1 <= a
  {
    if a == 1 then [11] else seq(a + 2, b => a * 10 + b + 1)
  }

  /** The ids of rows 1 to `a - 1`, in order. */
  function IdsBefore(a: int): seq<CellID>
    requires 1 <= a
  {
    if a == 1 then [] else IdsBefore(a - 1) + RowIds(a - 1)
  }

  /** `cellIDIterator`, with its yields collected: rows 1 to `RowCount`,
      columns 1 to row + 2, only column 1 in the first row. */
  method CellIdIterator() returns (ids: seq<CellID>)
    ensures ids == [11, 21, 22, 23, 24, 31, 32, 33, 34, 35, 41, 42, 43, 44, 45, 46]
  {
    ids := [];
    var a := 1;
    while a <= RowCount
      invariant 1 <= a <= RowCount + 1
      invariant ids == IdsBefore(a)
    {
      var b := 1;
      var row: seq<CellID> := [];
      while b <= a + 2
        invariant 1 <= b <= a + 3
        invariant a == 1 ==> row == (if b > 1 then [11] else [])
        invariant a != 1 ==> row == seq(b - 1, k => a * 10 + k + 1)
      {
        if !(a == 1 && b > 1) {
          row := row + [a * 10 + b];
        }
        b := b + 1;
      }
      ids := ids + row;
      a := a + 1;
    }
    AllRowIds();
  }

  lemma AllRowIds()
    ensures IdsBefore(RowCount + 1) == [11, 21, 22, 23, 24, 31, 32, 33, 34, 35, 41, 42, 43, 44, 45, 46]
  {
    assert RowIds(2) == [21, 22, 23, 24];
    assert RowIds(3) == [31, 32, 33, 34, 35];
    assert RowIds(4) == [41, 42, 43, 44, 45, 46];
  }
}

=== FILE: faces.dfy ===
/** The orientation state machine of a tetrahedral die (class `DiceFaces`).

    The state is five slots `[left, top, right, up, down]`. Slots 0-2 are the
    visible faces; slots 3-4 form the null zone, where one slot is 0 and the
    other holds the hidden fourth face. Every operation is modelled on any
    five-slot array, exactly as the code computes it; the geometric properties
    are proved for well-formed arrays. */
module DiceFaces {
  import opened Types

  type Face = x: int | 0 <= x <= 4

  type Faces = s: seq<Face> | |s| == 5 witness [1, 2, 3, 4, 0]

  /** The arrangement every new die starts from. */
  const Default: Faces := [1, 2, 3, 4, 0]

  /** The central invariant: visible faces are non-zero, the 0 sits in the
      null zone, and no value repeats. */
  ghost predicate WellFormed(f: Faces) {
    && f[0] != 0 && f[1] != 0 && f[2] != 0
    && (f[3] == 0 || f[4] == 0)
    && forall i, j :: 0 <= i < j < 5 ==> f[i] != f[j]
  }

  /** `top`: on a legal die a real face, and never the hidden one. */
  function Top(f: Faces): (t: Face)
    ensures WellFormed(f) ==> t != 0 && t != Hidden(f)
  {
    f[1]
  }

  /** The slot of the null zone holding 0 (`nullIndex`): the down slot unless
      it holds a face. */
  function NullIndex(f: Faces): (i: nat)
    ensures i == 3 || i == 4
    ensures f[4] == 0 ==> i == 4
    ensures f[3] == 0 || f[4] == 0 ==> f[i] == 0
  {
    if f[4] == 0 then 4 else 3
  }

  /** The other null-zone slot, the one holding the hidden face. */
  function HiddenIndex(f: Faces): (i: nat)
    ensures i == 3 || i == 4
    ensures i != NullIndex(f)
  {
    7 - NullIndex(f)
  }

  /** `nullZoneNumber`: the hidden face, the one face of a legal die that is
      not in view. */
  function Hidden(f: Faces): (h: Face)
    ensures WellFormed(f) ==> h != 0 && h != f[0] && h != f[1] && h != f[2]
  {
    f[HiddenIndex(f)]
  }

  /** `pointingDirection`: a legal die points up exactly when its 0 sits in
      the down slot, and down exactly when it sits in the up slot. */
  function PointingDirection(f: Faces): (p: Pointing)
    ensures WellFormed(f) ==> (p == PointsUp <==> f[4] == 0)
    ensures WellFormed(f) ==> (p == PointsDown <==> f[3] == 0)
  {
    if NullIndex(f) == 4 then PointsUp else PointsDown
  }

  /** `canMoveUp`: a legal die can tip up exactly when it points down. */
  function CanMoveUp(f: Faces): (b: bool)
    ensures WellFormed(f) ==> (b <==> PointingDirection(f) == PointsDown)
  {
    f[3] == 0
  }

  /** `canMoveDown`: a legal die can tip down exactly when it points up. */
  function CanMoveDown(f: Faces): (b: bool)
    ensures WellFormed(f) ==> (b <==> PointingDirection(f) == PointsUp)
  {
    f[4] == 0
  }

  /** `Array.prototype.indexOf`: the first slot holding `v`, or -1. */
  function IndexOf(s: seq<Face>, v: Face): (i: int)
    ensures -1 <= i < |s|
    ensures 0 <= i ==> s[i] == v && forall j :: 0 <= j < i ==> s[j] != v
    ensures i == -1 <==> v !in s
  {
    if |s| == 0 then -1
    else if s[0] == v then 0
    else
      var k := IndexOf(s[1..], v);
      assert forall j :: 1 <= j < |s| ==> s[j] == s[1..][j - 1];
      if k == -1 then -1 else k + 1
  }

  /** Assigning `faces[i] = v`. A negative index writes a property beside the
      array, so the elements stay as they were. */
  function Store(f: Faces, i: int, v: Face): (g: Faces)
    requires i < 5
  {
    if 0 <= i then f[i := v] else f
  }

  /** `moveNumberToNullZone`: write `v` over the null-zone 0, zero the slot
      that held the hidden face (found by value), and hand back that face. */
  function MoveNumberToNullZone(f: Faces, v: Face): (r: (Faces, Face))
    ensures WellFormed(f) ==> r.1 == Hidden(f)
    ensures WellFormed(f) ==> r.0[..3] == f[..3]
    ensures WellFormed(f) ==> r.0[NullIndex(f)] == v && r.0[HiddenIndex(f)] == 0
    ensures WellFormed(f) && v != 0 ==> NullIndex(r.0) == HiddenIndex(f)
  {
    var oldNullZoneNumber := Hidden(f);
    var newNullIndex := IndexOf(f, oldNullZoneNumber);
    (Store(Store(f, NullIndex(f), v), newNullIndex, 0), oldNullZoneNumber)
  }

  /** The `realFaces` setter: replace slots 0-2, keep the null zone, and with
      it the pointing. */
  function WithRealFaces(f: Faces, left: Face, top: Face, right: Face): (r: Faces)
    ensures r[3] == f[3] && r[4] == f[4]
    ensures NullIndex(r) == NullIndex(f) && PointingDirection(r) == PointingDirection(f)
  {
    [left, top, right, f[3], f[4]]
  }

  /** `move`: tip the die over an edge. Left and right always succeed; a
      vertical tip is refused, before anything changes, unless the matching
      null-zone slot is the empty one. */
  function Move(f: Faces, d: Direction): (r: Result<Faces>)
    ensures r.Err? <==> (d == Down && f[4] != 0) || (d == Up && f[3] != 0)
    ensures r.Err? ==> r.error == (if d == Down then CantMoveDown else CantMoveUp)
    ensures WellFormed(f) && r.Ok? ==>
              && WellFormed(r.value)
              && PointingDirection(r.value) != PointingDirection(f)
              && Tipped(f, d, r.value)
  {
    match d
    case Right => Ok(TipRight(f))
    case Left => Ok(TipLeft(f))
    case _ =>
      if d == Down && !CanMoveDown(f) then Err(CantMoveDown)
      else if d == Up && !CanMoveUp(f) then Err(CantMoveUp)
      else Ok(TipVertical(f))
  }

  /** The arrangement after tipping right. */
  function TipRight(f: Faces): (r: Faces)
    ensures WellFormed(f) ==>
              WellFormed(r) && PointingDirection(r) != PointingDirection(f) && Tipped(f, Right, r)
  {
    var (g, hidden) := MoveNumberToNullZone(f, f[2]);
    WithRealFaces(g, hidden, g[0], g[1])
  }

  /** The arrangement after tipping left. */
  function TipLeft(f: Faces): (r: Faces)
    ensures WellFormed(f) ==>
              WellFormed(r) && PointingDirection(r) != PointingDirection(f) && Tipped(f, Left, r)
  {
    var (g, hidden) := MoveNumberToNullZone(f, f[0]);
    WithRealFaces(g, g[1], g[2], hidden)
  }

  /** The arrangement after the legal vertical tip. */
  function TipVertical(f: Faces): (r: Faces)
    ensures WellFormed(f) ==>
              && WellFormed(r) && PointingDirection(r) != PointingDirection(f)
              && Tipped(f, Up, r) && Tipped(f, Down, r)
  {
    var (g, hidden) := MoveNumberToNullZone(f, f[1]);
    WithRealFaces(g, g[0], hidden, g[2])
  }

  /** Reference description of a tip, face by face: the face the die rolls
      over stays in view, the face it lands on becomes hidden, and the hidden
      face comes up where the die rolled from. */
  ghost predicate Tipped(f: Faces, d: Direction, g: Faces) {
    match d
    case Right => g[0] == Hidden(f) && g[1] == f[0] && g[2] == f[1] && Hidden(g) == f[2]
    case Left => g[0] == f[1] && g[1] == f[2] && g[2] == Hidden(f) && Hidden(g) == f[0]
    case _ => g[0] == f[0] && g[1] == Hidden(f) && g[2] == f[2] && Hidden(g) == f[1]
  }

  /** `rotate`: spin in place. The requested direction is replaced by the one
      the current pointing direction allows, so only the pointing matters. */
  function Rotate(f: Faces, s: Spin): (r: Faces)
    ensures WellFormed(f) ==> WellFormed(r)
    ensures WellFormed(f) ==> r[1] == f[1]
    ensures WellFormed(f) ==> PointingDirection(r) != PointingDirection(f)
    ensures WellFormed(f) ==> Spun(f, r)
  {
    var s' :=
      if s == SpinRight && NullIndex(f) == 3 then SpinLeft
      else if s == SpinLeft && NullIndex(f) == 4 then SpinRight
      else s;
    assert s' == SpinLeft ==> NullIndex(f) == 3;
    if s' == SpinRight then
      var (g, hidden) := MoveNumberToNullZone(f, f[2]);
      WithRealFaces(g, g[0], g[1], hidden)
    else
      var (g, hidden) := MoveNumberToNullZone(f, f[0]);
      WithRealFaces(g, hidden, g[1], g[2])
  }

  /** Reference description of a spin: pointing up, the right face and the
      hidden face trade places; pointing down, the left face and the hidden
      face do. */
  ghost predicate Spun(f: Faces, g: Faces) {
    if PointingDirection(f) == PointsUp then
      g[0] == f[0] && g[2] == Hidden(f) && Hidden(g) == f[2]
    else
      g[0] == Hidden(f) && g[2] == f[2] && Hidden(g) == f[0]
  }

  /** The default arrangement is legal and points up. */
  lemma DefaultIsWellFormed()
    ensures WellFormed(Default)
    ensures PointingDirection(Default) == PointsUp && Top(Default) == 2
  {
  }

  /** How often `v` occurs in the five slots, slot by slot. */
  function Occurrences(f: Faces, v: int): nat {
    (if f[0] == v then 1 else 0) + (if f[1] == v then 1 else 0) + (if f[2] == v then 1 else 0)
    + (if f[3] == v then 1 else 0) + (if f[4] == v then 1 else 0)
  }

  lemma MultisetCounts(f: Faces, v: int)
    ensures multiset(f)[v] == Occurrences(f, v)
  {
    assert f == [f[0]] + [f[1]] + [f[2]] + [f[3]] + [f[4]];
  }

  /** The five face values, each once, with 0 for the empty null-zone slot. */
  lemma AllFacesCounts(v: int)
    ensures multiset{0, 1, 2, 3, 4}[v] == Occurrences(Default, v)
  {
    MultisetCounts(Default, v);
    assert multiset(Default) == multiset{0, 1, 2, 3, 4};
  }

  lemma WellFormedHasAllFaces(f: Faces)
    requires WellFormed(f)
    ensures multiset(f) == multiset{0, 1, 2, 3, 4}
  {
    forall v
      ensures multiset(f)[v] == multiset{0, 1, 2, 3, 4}[v]
    {
      MultisetCounts(f, v);
      AllFacesCounts(v);
    }
  }

  lemma AllFacesIsWellFormed(f: Faces)
    requires f[0] != 0 && f[1] != 0 && f[2] != 0
    requires multiset(f) == multiset{0, 1, 2, 3, 4}
    ensures WellFormed(f)
  {
    forall i, j | 0 <= i < j < 5
      ensures f[i] != f[j]
    {
      MultisetCounts(f, f[i]);
      AllFacesCounts(f[i]);
    }
    MultisetCounts(f, 0);
    AllFacesCounts(0);
  }

  /** The invariant as a permutation: the visible faces are
      non-zero and the five slots hold 0, 1, 2, 3 and 4 once each. */
  lemma WellFormedIsPermutation(f: Faces)
    ensures WellFormed(f) <==>
              f[0] != 0 && f[1] != 0 && f[2] != 0 && multiset(f) == multiset{0, 1, 2, 3, 4}
  {
    if WellFormed(f) {
      WellFormedHasAllFaces(f);
    }
    if f[0] != 0 && f[1] != 0 && f[2] != 0 && multiset(f) == multiset{0, 1, 2, 3, 4} {
      AllFacesIsWellFormed(f);
    }
  }

  /** A well-formed arrangement is fixed by its visible faces, its hidden face
      and its pointing direction. */
  lemma Determined(f: Faces, g: Faces)
    requires WellFormed(f) && WellFormed(g)
    requires f[0] == g[0] && f[1] == g[1] && f[2] == g[2]
    requires Hidden(f) == Hidden(g)
    requires PointingDirection(f) == PointingDirection(g)
    ensures f == g
  {
  }

  /** Down is legal exactly when the die points up, and up exactly when it
      points down; hence after a tip down the next tip down is refused. */
  lemma VerticalLegality(f: Faces)
    requires WellFormed(f)
    ensures Move(f, Down).Ok? <==> PointingDirection(f) == PointsUp
    ensures Move(f, Up).Ok? <==> PointingDirection(f) == PointsDown
    ensures Move(f, Down).Ok? ==> Move(Move(f, Down).value, Down) == Err(CantMoveDown)
    ensures Move(f, Up).Ok? ==> Move(Move(f, Up).value, Up) == Err(CantMoveUp)
  {
  }

  /** Tipping back the opposite way restores all five slots exactly. */
  lemma MoveRoundTrip(f: Faces, d: Direction)
    requires WellFormed(f)
    requires Move(f, d).Ok?
    ensures Move(Move(f, d).value, Inverse(d)) == Ok(f)
  {
    var g := Move(f, d).value;
    var back := Move(g, Inverse(d));
    assert back.Ok?;
    Determined(back.value, f);
  }

  /** The spin direction passed in never matters. */
  lemma RotateIgnoresSpin(f: Faces)
    ensures Rotate(f, SpinLeft) == Rotate(f, SpinRight)
  {
  }

  /** Repeated spins cycle through the six orders of the three non-top faces,
      so only the sixth spin restores the arrangement. */
  lemma RotateHasOrderSix(f: Faces, s: Spin)
    requires WellFormed(f)
    ensures Rotate(Rotate(Rotate(Rotate(Rotate(Rotate(f, s), s), s), s), s), s) == f
    ensures Rotate(Rotate(f, s), s) != f
    ensures Rotate(Rotate(Rotate(f, s), s), s) != f
  {
    var f1 := Rotate(f, s);
    var f2 := Rotate(f1, s);
    var f3 := Rotate(f2, s);
    var f4 := Rotate(f3, s);
    var f5 := Rotate(f4, s);
    var f6 := Rotate(f5, s);
    Determined(f6, f);
  }

  /** `randomMove`: a drawn vertical direction becomes whichever vertical tip
      is legal; a drawn horizontal direction is tipped as drawn. */
  function RandomMove(f: Faces, drawn: Direction): (r: Faces)
    ensures WellFormed(f) ==> WellFormed(r)
    ensures WellFormed(f) ==> PointingDirection(r) != PointingDirection(f)
  {
    if IsVertical(drawn) then
      if CanMoveDown(f) then Move(f, Down).value
      else if CanMoveUp(f) then Move(f, Up).value
      else f
    else Move(f, drawn).value
  }

  /** One round of `simulatedRoll`: the drawn direction, whether to spin
      afterwards, and the drawn spin direction. */
  datatype Tumble = Tumble(move: Direction, spin: bool, spinDirection: Spin)

  function Spins(draws: seq<Tumble>): nat
  {
    if |draws| == 0 then 0 else (if draws[0].spin then 1 else 0) + Spins(draws[1..])
  }

  /** One round: the random tip, then the spin if one was drawn. The tip
      flips the pointing and so does the spin, so the round keeps the pointing
      exactly when it spins. */
  function Tumbled(f: Faces, t: Tumble): (r: Faces)
    ensures WellFormed(f) ==> WellFormed(r)
    ensures WellFormed(f) ==> (PointingDirection(r) == PointingDirection(f) <==> t.spin)
  {
    var moved := RandomMove(f, t.move);
    if t.spin then Rotate(moved, t.spinDirection) else moved
  }

  /** `simulatedRoll(|draws|)`: one round per draw. */
  function SimulatedRoll(f: Faces, draws: seq<Tumble>): (r: Faces)
    ensures WellFormed(f) ==> WellFormed(r)
    decreases |draws|
  {
    if |draws| == 0 then f else SimulatedRoll(Tumbled(f, draws[0]), draws[1..])
  }

  /** Whether the tips and spins of the rounds flip the pointing an even
      number of times: each round tips once and flips again if it spins. */
  predicate EvenFlips(draws: seq<Tumble>)
    decreases |draws|
  {
    if |draws| == 0 then true else (EvenFlips(draws[1..]) <==> draws[0].spin)
  }

  lemma {:induction false} EvenFlipsCounts(draws: seq<Tumble>)
    ensures EvenFlips(draws) <==> (|draws| + Spins(draws)) % 2 == 0
    decreases |draws|
  {
    if |draws| > 0 {
      EvenFlipsCounts(draws[1..]);
    }
  }

  lemma {:induction false} SimulatedRollFlips(f: Faces, draws: seq<Tumble>)
    requires WellFormed(f)
    ensures (PointingDirection(SimulatedRoll(f, draws)) == PointingDirection(f)) <==> EvenFlips(draws)
    decreases |draws|
  {
    if |draws| > 0 {
      var next := Tumbled(f, draws[0]);
      SimulatedRollFlips(next, draws[1..]);
      TwoPointings(PointingDirection(f), PointingDirection(next), PointingDirection(SimulatedRoll(next, draws[1..])));
    }
  }

  /** Every tip and every spin flips the pointing direction, so after a
      simulated roll the pointing is kept exactly when the rounds and the
      spins add up to an even number. */
  lemma {:induction false} SimulatedRollParity(f: Faces, draws: seq<Tumble>)
    requires WellFormed(f)
    ensures (PointingDirection(SimulatedRoll(f, draws)) == PointingDirection(f))
            <==> (|draws| + Spins(draws)) % 2 == 0
  {
    SimulatedRollFlips(f, draws);
    EvenFlipsCounts(draws);
  }

  /** With two pointing directions, `c` agrees with `a` exactly when its
      agreement with `b` matches `b`'s with `a`. */
  lemma TwoPointings(a: Pointing, b: Pointing, c: Pointing)
    ensures (c == a) <==> ((c == b) <==> (b == a))
  {
  }

  /** Random indices as `randint(0, size)` delivers them while `roll` places
      the faces 1, 2, 3 and 4: the k-th is below the 4 - k free slots. */
  predicate ValidPicks(picks: seq<nat>) {
    |picks| == 4 && forall k :: 0 <= k < 4 ==> picks[k] < 4 - k
  }

  /** Slot numbers of a five-slot array. */
  predicate Slots(free: seq<nat>) {
    forall k :: 0 <= k < |free| ==> free[k] < 5
  }

  /** Slot numbers of a five-slot array, none repeated. */
  predicate DistinctSlots(free: seq<nat>) {
    && Slots(free)
    && (forall i, j :: 0 <= i < j < |free| ==> free[i] != free[j])
  }

  /** Deleting one slot from the ordered set of free slots. */
  function Without(free: seq<nat>, i: nat): (r: seq<nat>)
    requires i < |free|
    ensures |r| == |free| - 1
    ensures forall k :: 0 <= k < |r| ==> r[k] == if k < i then free[k] else free[k + 1]
  {
    seq(|free| - 1, k requires 0 <= k < |free| - 1 => if k < i then free[k] else free[k + 1])
  }

  /** Deleting the slot at index `i` keeps the others distinct and drops
      that slot. */
  lemma WithoutDistinct(free: seq<nat>, i: nat)
    requires DistinctSlots(free) && i < |free|
    ensures DistinctSlots(Without(free, i))
    ensures free[i] !in Without(free, i)
  {
  }

  /** The draws after the first are draws for one slot fewer. */
  lemma DrawsTail(picks: seq<nat>, n: nat)
    requires |picks| == n > 0
    requires forall k :: 0 <= k < n ==> picks[k] < n - k
    ensures forall k :: 0 <= k < n - 1 ==> picks[1..][k] < n - 1 - k
  {
    forall k | 0 <= k < n - 1
      ensures picks[1..][k] < n - 1 - k
    {
      assert picks[1..][k] == picks[k + 1];
    }
  }

  /** What the placing loop needs: slot numbers, one draw per slot, each
      below the number of slots left, and one face per slot up to 4. */
  ghost predicate PlaceArgs(free: seq<nat>, picks: seq<nat>, num: int) {
    && Slots(free)
    && |picks| == |free| && 1 <= num && num + |free| == 5
    && forall k :: 0 <= k < |picks| ==> picks[k] < |free| - k
  }

  /** One turn of the placing loop leaves the arguments for the next. */
  lemma PlaceArgsStep(free: seq<nat>, picks: seq<nat>, num: int)
    requires PlaceArgs(free, picks, num) && |free| > 0
    ensures PlaceArgs(Without(free, picks[0]), picks[1..], num + 1)
  {
    DrawsTail(picks, |free|);
  }

  /** A slot that was not free does not become free. */
  lemma WithoutShrinks(free: seq<nat>, i: nat, s: nat)
    requires i < |free| && s !in free
    ensures s !in Without(free, i)
  {
  }

  /** The placing loop of `roll`: face `num` goes to the free slot at index
      `picks[0]`, that slot leaves the free set, and the next face follows. */
  function Place(faces: Faces, free: seq<nat>, picks: seq<nat>, num: int): Faces
    requires PlaceArgs(free, picks, num)
    decreases |free|
  {
    if |free| == 0 then faces
    else
      Place(faces[free[picks[0]] := num], Without(free, picks[0]), picks[1..], num + 1)
  }

  /** The placing loop leaves every slot outside the free set as it was. */
  lemma {:induction false} PlaceKeeps(faces: Faces, free: seq<nat>, picks: seq<nat>, num: int, s: nat)
    requires PlaceArgs(free, picks, num)
    requires s < 5 && s !in free
    ensures Place(faces, free, picks, num)[s] == faces[s]
    decreases |free|
  {
    if |free| > 0 {
      var i := picks[0];
      var next := faces[free[i] := num];
      var rest := Without(free, i);
      PlaceArgsStep(free, picks, num);
      assert Place(faces, free, picks, num) == Place(next, rest, picks[1..], num + 1);
      WithoutShrinks(free, i, s);
      PlaceKeeps(next, rest, picks[1..], num + 1, s);
    }
  }

  /** The slot the first draw selects receives `num`. */
  lemma PlaceFirst(faces: Faces, free: seq<nat>, picks: seq<nat>, num: int)
    requires PlaceArgs(free, picks, num) && DistinctSlots(free) && |free| > 0
    ensures Place(faces, free, picks, num)[free[picks[0]]] == num
  {
    var i := picks[0];
    PlaceArgsStep(free, picks, num);
    WithoutDistinct(free, i);
    PlaceKeeps(faces[free[i] := num], Without(free, i), picks[1..], num + 1, free[i]);
  }

  /** Every free slot receives a face from `num` on. */
  lemma {:induction false} PlaceAbove(faces: Faces, free: seq<nat>, picks: seq<nat>, num: int, k: nat)
    requires PlaceArgs(free, picks, num) && DistinctSlots(free) && k < |free|
    ensures num <= Place(faces, free, picks, num)[free[k]]
    decreases |free|, 1
  {
    if k == picks[0] {
      PlaceFirst(faces, free, picks, num);
    } else {
      PlaceLater(faces, free, picks, num, k);
    }
  }

  /** Every other free slot receives a face after `num`. */
  lemma {:induction false} PlaceLater(faces: Faces, free: seq<nat>, picks: seq<nat>, num: int, k: nat)
    requires PlaceArgs(free, picks, num) && DistinctSlots(free) && k < |free| && k != picks[0]
    ensures num < Place(faces, free, picks, num)[free[k]]
    decreases |free|, 0
  {
    var i := picks[0];
    var rest := Without(free, i);
    var k' := if k < i then k else k - 1;
    PlaceArgsStep(free, picks, num);
    WithoutDistinct(free, i);
    assert rest[k'] == free[k];
    PlaceAbove(faces[free[i] := num], rest, picks[1..], num + 1, k');
  }

  /** Different free slots receive different faces. */
  lemma {:induction false} PlaceDistinct(faces: Faces, free: seq<nat>, picks: seq<nat>, num: int, k: nat, l: nat)
    requires PlaceArgs(free, picks, num) && DistinctSlots(free)
    requires k < |free| && l < |free| && k != l
    ensures Place(faces, free, picks, num)[free[k]] != Place(faces, free, picks, num)[free[l]]
    decreases |free|
  {
    var i := picks[0];
    if k == i {
      PlaceFirst(faces, free, picks, num);
      PlaceLater(faces, free, picks, num, l);
    } else if l == i {
      PlaceFirst(faces, free, picks, num);
      PlaceLater(faces, free, picks, num, k);
    } else {
      var rest := Without(free, i);
      var k' := if k < i then k else k - 1;
      var l' := if l < i then l else l - 1;
      PlaceArgsStep(free, picks, num);
      WithoutDistinct(free, i);
      assert rest[k'] == free[k] && rest[l'] == free[l];
      PlaceDistinct(faces[free[i] := num], rest, picks[1..], num + 1, k', l');
    }
  }

  /** The slots left once the null-zone slot `empty` is set aside, in
      ascending order as the Set of positions iterates them. */
  function FreeSlots(empty: nat): (free: seq<nat>)
    requires empty == 3 || empty == 4
    ensures |free| == 4 && DistinctSlots(free)
    ensures forall k :: 0 <= k < 4 ==> free[k] != empty
    ensures forall i :: 0 <= i < 5 && i != empty ==> free[FreeIndex(empty, i)] == i
  {
    if empty == 3 then [0, 1, 2, 4] else [0, 1, 2, 3]
  }

  /** Where slot `i` sits among the free slots. */
  function FreeIndex(empty: nat, i: nat): int {
    if i < empty then i else i - 1
  }

  lemma FilledIsWellFormed(f: Faces, empty: nat)
    requires empty == 3 || empty == 4
    requires f[empty] == 0
    requires forall k :: 0 <= k < 4 ==> 1 <= f[FreeSlots(empty)[k]]
    requires forall k, l :: 0 <= k < l < 4 ==> f[FreeSlots(empty)[k]] != f[FreeSlots(empty)[l]]
    ensures WellFormed(f)
  {
    var free := FreeSlots(empty);
    forall i, j | 0 <= i < j < 5
      ensures f[i] != f[j] && (i < 3 ==> f[i] != 0)
    {
      if i != empty {
        assert free[FreeIndex(empty, i)] == i;
      }
      if j != empty {
        assert free[FreeIndex(empty, j)] == j;
      }
    }
  }

  /** The placing loop fills every free slot with its own face from 1 on. */
  lemma PlaceFillsAll(faces: Faces, free: seq<nat>, picks: seq<nat>)
    requires PlaceArgs(free, picks, 1) && DistinctSlots(free)
    ensures forall k :: 0 <= k < |free| ==> 1 <= Place(faces, free, picks, 1)[free[k]]
    ensures forall k, l :: 0 <= k < l < |free| ==>
              Place(faces, free, picks, 1)[free[k]] != Place(faces, free, picks, 1)[free[l]]
  {
    forall k | 0 <= k < |free|
      ensures 1 <= Place(faces, free, picks, 1)[free[k]]
    {
      PlaceAbove(faces, free, picks, 1, k);
    }
    forall k, l | 0 <= k < l < |free|
      ensures Place(faces, free, picks, 1)[free[k]] != Place(faces, free, picks, 1)[free[l]]
    {
      PlaceDistinct(faces, free, picks, 1, k, l);
    }
  }

  /** Placing the faces 1 to 4 into the four slots around the null slot
      yields a legal arrangement with its 0 kept. */
  lemma PlacedIsLegal(faces: Faces, empty: nat, picks: seq<nat>)
    requires (empty == 3 || empty == 4) && faces[empty] == 0 && ValidPicks(picks)
    ensures PlaceArgs(FreeSlots(empty), picks, 1)
    ensures WellFormed(Place(faces, FreeSlots(empty), picks, 1))
    ensures Place(faces, FreeSlots(empty), picks, 1)[empty] == 0
  {
    var free := FreeSlots(empty);
    PlaceFillsAll(faces, free, picks);
    PlaceKeeps(faces, free, picks, 1, empty);
    FilledIsWellFormed(Place(faces, free, picks, 1), empty);
  }

  /** `roll`: the 0 goes to the null-zone slot drawn by `nullPick`, then the
      faces 1 to 4 go to the free slots the picks select. Every outcome is a
      legal arrangement. */
  function Roll(nullPick: nat, picks: seq<nat>): (r: Faces)
    requires nullPick < 2 && ValidPicks(picks)
    ensures WellFormed(r)
    ensures r[3 + nullPick] == 0
  {
    PlacedIsLegal([0, 0, 0, 0, 0], 3 + nullPick, picks);
    Place([0, 0, 0, 0, 0], FreeSlots(3 + nullPick), picks, 1)
  }

  /** The faces `target` holds at the free slots, in the order of `free`. */
  function Image(free: seq<nat>, target: Faces): (r: seq<Face>)
    requires Slots(free)
    ensures |r| == |free| && forall k :: 0 <= k < |free| ==> r[k] == target[free[k]]
  {
    seq(|free|, k requires 0 <= k < |free| => target[free[k]])
  }

  /** Each face from `num` on sits at one of the free slots of `target`. */
  ghost predicate Covers(free: seq<nat>, target: Faces, num: int)
    requires Slots(free)
  {
    forall v :: num <= v < num + |free| ==> v in Image(free, target)
  }

  /** Setting aside the slot that holds `num` leaves the faces after it
      covered. */
  lemma CoversRest(free: seq<nat>, target: Faces, num: int, i: nat)
    requires Slots(free) && Covers(free, target, num)
    requires i < |free| && target[free[i]] == num
    ensures Slots(Without(free, i)) && Covers(Without(free, i), target, num + 1)
  {
    var rest := Without(free, i);
    var img := Image(free, target);
    forall v | num + 1 <= v < num + 1 + |rest|
      ensures v in Image(rest, target)
    {
      assert v in img;
      var k :| 0 <= k < |free| && img[k] == v;
      if k < i {
        assert Image(rest, target)[k] == v;
      } else {
        assert Image(rest, target)[k - 1] == v;
      }
    }
  }

  /** A first draw below `n` ahead of draws for `n - 1` free slots. */
  lemma DrawsPrepend(i: nat, tail: seq<nat>, n: nat)
    requires i < n && |tail| + 1 == n
    requires forall k :: 0 <= k < |tail| ==> tail[k] < n - 1 - k
    ensures forall k :: 0 <= k < n ==> ([i] + tail)[k] < n - k
  {
    forall k | 0 <= k < n
      ensures ([i] + tail)[k] < n - k
    {
      if k > 0 {
        assert ([i] + tail)[k] == tail[k - 1];
      }
    }
  }

  /** The draws that make the placing loop reproduce `target`: each face
      picks the free slot where `target` holds it. */
  function PicksFor(free: seq<nat>, target: Faces, num: int): (picks: seq<nat>)
    requires Slots(free) && Covers(free, target, num)
    requires 1 <= num && num + |free| == 5
    ensures |picks| == |free|
    ensures forall k :: 0 <= k < |picks| ==> picks[k] < |free| - k
    ensures |free| > 0 ==> picks[0] < |free| && target[free[picks[0]]] == num
    decreases |free|
  {
    if |free| == 0 then []
    else
      var img := Image(free, target);
      assert num in img;
      var i := IndexOf(img, num);
      CoversRest(free, target, num, i);
      var tail := PicksFor(Without(free, i), target, num + 1);
      DrawsPrepend(i, tail, |free|);
      [i] + tail
  }

  /** `PicksFor` unfolded once: the first draw selects the slot holding
      `num`, and the rest are the draws for the remaining slots. */
  lemma PicksForStep(free: seq<nat>, target: Faces, num: int)
    requires Slots(free) && Covers(free, target, num)
    requires 1 <= num && num + |free| == 5 && |free| > 0
    ensures var picks := PicksFor(free, target, num);
            && Slots(Without(free, picks[0]))
            && Covers(Without(free, picks[0]), target, num + 1)
            && picks[1..] == PicksFor(Without(free, picks[0]), target, num + 1)
  {
    var img := Image(free, target);
    assert num in img;
    var i := IndexOf(img, num);
    CoversRest(free, target, num, i);
    var tail := PicksFor(Without(free, i), target, num + 1);
    assert PicksFor(free, target, num) == [i] + tail;
    assert ([i] + tail)[0] == i && ([i] + tail)[1..] == tail;
  }

  /** The draws make the placing loop put each face where `target` has it:
      the first draw selects the free slot holding `num`, and so on. */
  ghost predicate PicksMatch(free: seq<nat>, picks: seq<nat>, target: Faces, num: int)
    requires Slots(free)
    decreases |free|
  {
    && |picks| == |free|
    && (|free| > 0 ==>
          && picks[0] < |free|
          && target[free[picks[0]]] == num
          && PicksMatch(Without(free, picks[0]), picks[1..], target, num + 1))
  }

  /** The draws `PicksFor` computes match `target`. */
  lemma {:induction false} PicksForMatch(free: seq<nat>, target: Faces, num: int)
    requires DistinctSlots(free) && Covers(free, target, num)
    requires 1 <= num && num + |free| == 5
    ensures PicksMatch(free, PicksFor(free, target, num), target, num)
    decreases |free|
  {
    if |free| > 0 {
      var picks := PicksFor(free, target, num);
      var i := picks[0];
      PicksForStep(free, target, num);
      WithoutDistinct(free, i);
      PicksForMatch(Without(free, i), target, num + 1);
    }
  }

  /** With matching draws the placing loop writes `target`'s value into the
      free slot `free[t]`. */
  lemma {:induction false} PlaceFollowsPicks(faces: Faces, free: seq<nat>, picks: seq<nat>, target: Faces, num: int, t: nat)
    requires PlaceArgs(free, picks, num) && DistinctSlots(free)
    requires PicksMatch(free, picks, target, num)
    requires t < |free|
    ensures Place(faces, free, picks, num)[free[t]] == target[free[t]]
    decreases |free|
  {
    var i := picks[0];
    var next := faces[free[i] := num];
    var rest := Without(free, i);
    PlaceArgsStep(free, picks, num);
    assert Place(faces, free, picks, num) == Place(next, rest, picks[1..], num + 1);
    if t == i {
      WithoutDistinct(free, i);
      PlaceKeeps(next, rest, picks[1..], num + 1, free[i]);
    } else {
      var t' := if t < i then t else t - 1;
      assert rest[t'] == free[t];
      WithoutDistinct(free, i);
      PlaceFollowsPicks(next, rest, picks[1..], target, num + 1, t');
    }
  }

  /** In a legal arrangement the faces 1 to 4 fill the slots outside the
      null-zone 0. */
  lemma WellFormedCovers(f: Faces)
    requires WellFormed(f)
    ensures Covers(FreeSlots(NullIndex(f)), f, 1)
  {
    var free := FreeSlots(NullIndex(f));
    WellFormedHasAllFaces(f);
    forall v | 1 <= v < 5
      ensures v in Image(free, f)
    {
      assert v in multiset(f);
      var i :| 0 <= i < 5 && f[i] == v;
      assert free[FreeIndex(NullIndex(f), i)] == i;
      assert Image(free, f)[FreeIndex(NullIndex(f), i)] == v;
    }
  }

  /** The draws `PicksFor` computes for a legal arrangement make `roll`
      reproduce it. */
  lemma RollReproduces(f: Faces)
    requires WellFormed(f)
    ensures Covers(FreeSlots(NullIndex(f)), f, 1)
    ensures ValidPicks(PicksFor(FreeSlots(NullIndex(f)), f, 1))
    ensures Roll(NullIndex(f) - 3, PicksFor(FreeSlots(NullIndex(f)), f, 1)) == f
  {
    var e := NullIndex(f);
    var free := FreeSlots(e);
    WellFormedCovers(f);
    var picks := PicksFor(free, f, 1);
    PicksForMatch(free, f, 1);
    var r := Roll(e - 3, picks);
    PlacedIsLegal([0, 0, 0, 0, 0], e, picks);
    assert r == Place([0, 0, 0, 0, 0], free, picks, 1);
    forall s | 0 <= s < 5
      ensures r[s] == f[s]
    {
      if s != e {
        assert free[FreeIndex(e, s)] == s;
        PlaceFollowsPicks([0, 0, 0, 0, 0], free, picks, f, 1, FreeIndex(e, s));
      }
    }
  }

  /** Every legal arrangement is among the outcomes of `roll`. */
  lemma RollReachesEvery(f: Faces)
    requires WellFormed(f)
    ensures exists nullPick: nat, picks: seq<nat> ::
              nullPick < 2 && ValidPicks(picks) && Roll(nullPick, picks) == f
  {
    RollReproduces(f);
  }
}

=== FILE: planner.dfy ===
/** The speculative movement planner of a die (class `Dice`).

    A die keeps its committed `faces` and a `temporaryFaces` copy that
    tentative moves tip. Each tentative move pushes the cell reached and the
    direction that undoes it onto `movementTracking` and spends one unit of
    `moveCount`, which starts at the committed top face. */
module Planner {
  import opened Types
  import F = DiceFaces
  import Cells

  /** One tentative step: the cell it reached and the direction undoing it. */
  datatype TrackedMove = TrackedMove(cell: CellID, undo: Direction)

  /** A die. `currentCell` is the cell it rests on; the owner and the cell are
      referred to by id. */
  datatype Dice = Dice(
    id: DiceId,
    owner: PlayerId,
    currentCell: Option<CellID>,
    faces: F.Faces,
    temporaryFaces: F.Faces,
    moveCount: int,
    movementTracking: seq<TrackedMove>)

  /** `topFace`: a legal die shows a non-zero face on top. */
  function TopFace(d: Dice): (t: F.Face)
    ensures F.WellFormed(d.faces) ==> 1 <= t
  {
    F.Top(d.faces)
  }

  /** `currentPointingDirection`: a legal die points up exactly when its
      committed 0 is in the down slot. */
  function CurrentPointingDirection(d: Dice): (p: Pointing)
    ensures F.WellFormed(d.faces) ==> (p == PointsUp <==> d.faces[4] == 0)
    ensures F.WellFormed(d.faces) ==> (p == PointsDown <==> d.faces[3] == 0)
  {
    F.PointingDirection(d.faces)
  }

  /** `temporaryPointingDirection`: the same, read from the speculative
      faces. */
  function TemporaryPointingDirection(d: Dice): (p: Pointing)
    ensures F.WellFormed(d.temporaryFaces) ==> (p == PointsUp <==> d.temporaryFaces[4] == 0)
    ensures F.WellFormed(d.temporaryFaces) ==> (p == PointsDown <==> d.temporaryFaces[3] == 0)
  {
    F.PointingDirection(d.temporaryFaces)
  }

  /** `canFinishMoving`: the whole budget has been spent, which under the
      planner invariant means as many steps were taken as the top face. */
  predicate CanFinishMoving(d: Dice)
    ensures Invariant(d) ==> (CanFinishMoving(d) <==> |d.movementTracking| == TopFace(d))
  {
    d.moveCount == 0
  }

  function Last<T>(s: seq<T>): T
    requires |s| > 0
  {
    s[|s| - 1]
  }

  /** The move budget: every tentative step taken spent one unit of the
      committed top face. */
  ghost predicate Budget(d: Dice) {
    0 <= d.moveCount && d.moveCount + |d.movementTracking| == TopFace(d)
  }

  /** Undo the recorded steps, newest first. */
  function Unwind(f: F.Faces, steps: seq<TrackedMove>): Result<F.Faces>
    decreases |steps|
  {
    if |steps| == 0 then Ok(f)
    else
      match F.Move(f, Last(steps).undo)
      case Err(e) => Err(e)
      case Ok(g) => Unwind(g, steps[..|steps| - 1])
  }

  /** What the planner keeps true between operations: both arrangements are
      legal, the budget adds up, and undoing every recorded step leads from
      the speculative arrangement back to the committed one. */
  ghost predicate Invariant(d: Dice) {
    && F.WellFormed(d.faces)
    && F.WellFormed(d.temporaryFaces)
    && Budget(d)
    && Unwind(d.temporaryFaces, d.movementTracking) == Ok(d.faces)
  }

  /** The cells the die refers to exist on the board, as references do. */
  ghost predicate Located(b: Cells.Board, d: Dice) {
    && (d.currentCell.Some? ==> d.currentCell.value in b)
    && (forall i :: 0 <= i < |d.movementTracking| ==> d.movementTracking[i].cell in b)
  }

  /** The constructor: default faces, a copy for speculation, a budget equal
      to the top face, and no cell yet. */
  function NewDice(id: DiceId, owner: PlayerId): (d: Dice)
    ensures Invariant(d)
    ensures d.id == id && d.owner == owner && d.currentCell == None
    ensures d.temporaryFaces == d.faces == F.Default
    ensures d.moveCount == TopFace(d) && d.movementTracking == []
  {
    Dice(id, owner, None, F.Default, F.Default, F.Top(F.Default), [])
  }

  /** The cell a step in direction `dir` leads to: from the newest tentative
      cell if there is one, else from the cell the die rests on. */
  function NextNeighbor(b: Cells.Board, d: Dice, dir: Direction): (r: Cells.NeighborRef)
    requires Located(b, d)
    ensures Cells.Valid(b) && r.Linked? ==> r.cell in b
    ensures |d.movementTracking| == 0 && d.currentCell.None? ==> r == Cells.Missing
  {
    if |d.movementTracking| > 0 then Cells.GetNeighbor(b, Last(d.movementTracking).cell, dir)
    else if d.currentCell.Some? then Cells.GetNeighbor(b, d.currentCell.value, dir)
    else Cells.Missing
  }

  /** `tryMoveTo`: take one tentative step. Refused with no budget left, when
      no linked cell lies that way, or when the speculative faces cannot tip
      that way; a refusal changes nothing. */
  function TryMoveTo(b: Cells.Board, d: Dice, dir: Direction): (r: Effect<Dice, ()>)
    requires Located(b, d)
    ensures r.result.Err? ==> r.state == d
    ensures d.moveCount == 0 ==> r.result == Err(NoMovesLeft)
    ensures d.moveCount != 0 && !NextNeighbor(b, d, dir).Linked? ==> r.result == Err(InvalidDirection)
    ensures d.moveCount != 0 && NextNeighbor(b, d, dir).Linked? ==>
              (r.result.Ok? <==> F.Move(d.temporaryFaces, dir).Ok?)
    ensures d.moveCount != 0 && NextNeighbor(b, d, dir).Linked? && F.Move(d.temporaryFaces, dir).Err? ==>
              r.result == Err(F.Move(d.temporaryFaces, dir).error)
    ensures r.state.id == d.id && r.state.owner == d.owner
    ensures r.result.Ok? ==>
              && r.state.moveCount == d.moveCount - 1
              && r.state.movementTracking
                 == d.movementTracking + [TrackedMove(NextNeighbor(b, d, dir).cell, Inverse(dir))]
              && Ok(r.state.temporaryFaces) == F.Move(d.temporaryFaces, dir)
              && r.state.faces == d.faces
              && r.state.currentCell == d.currentCell
    ensures Cells.Valid(b) ==> Located(b, r.state)
  {
    if d.moveCount == 0 then Effect(d, Err(NoMovesLeft))
    else
      var next := NextNeighbor(b, d, dir);
      if !next.Linked? then Effect(d, Err(InvalidDirection))
      else
        match F.Move(d.temporaryFaces, dir)
        case Err(e) => Effect(d, Err(e))
        case Ok(moved) =>
          var step := TrackedMove(next.cell, Inverse(dir));
          Effect(d.(temporaryFaces := moved,
                    movementTracking := d.movementTracking + [step],
                    moveCount := d.moveCount - 1), Ok(()))
  }

  /** `undoMove`: pop the newest step and tip the speculative faces back. It
      returns the cell of the popped step. The pop happens before the tip, so
      a tip that failed would leave the step popped. */
  function UndoMove(d: Dice): (r: Effect<Dice, CellID>)
    ensures |d.movementTracking| == 0 ==> r == Effect(d, Err(NoMoves))
    ensures |d.movementTracking| > 0 ==>
              && r.state.movementTracking == d.movementTracking[..|d.movementTracking| - 1]
              && r.state.faces == d.faces
              && r.state.currentCell == d.currentCell
    ensures |d.movementTracking| > 0 ==>
              (r.result.Ok? <==> F.Move(d.temporaryFaces, Last(d.movementTracking).undo).Ok?)
    ensures |d.movementTracking| > 0 && r.result.Ok? ==>
              && r.result.value == Last(d.movementTracking).cell
              && r.state.moveCount == d.moveCount + 1
              && Ok(r.state.temporaryFaces) == F.Move(d.temporaryFaces, Last(d.movementTracking).undo)
    ensures |d.movementTracking| > 0 && r.result.Err? ==>
              && r.result.error == F.Move(d.temporaryFaces, Last(d.movementTracking).undo).error
              && r.state.moveCount == d.moveCount
              && r.state.temporaryFaces == d.temporaryFaces
    ensures r.state.id == d.id && r.state.owner == d.owner
  {
    if |d.movementTracking| == 0 then Effect(d, Err(NoMoves))
    else
      var last := Last(d.movementTracking);
      var popped := d.(movementTracking := d.movementTracking[..|d.movementTracking| - 1]);
      match F.Move(d.temporaryFaces, last.undo)
      case Err(e) => Effect(popped, Err(e))
      case Ok(back) => Effect(popped.(temporaryFaces := back, moveCount := d.moveCount + 1), Ok(last.cell))
  }

  /** `resetTemporaryMoves`: abandon the walk. */
  function ResetTemporaryMoves(d: Dice): (r: Dice)
    ensures F.WellFormed(d.faces) ==> Invariant(r)
    ensures r.faces == d.faces && r.currentCell == d.currentCell
    ensures r.movementTracking == [] && r.temporaryFaces == d.faces
    ensures r.moveCount == TopFace(d)
    ensures r.id == d.id && r.owner == d.owner
  {
    d.(movementTracking := [], moveCount := TopFace(d), temporaryFaces := d.faces)
  }

  /** `Dice.rotate`: spin the committed faces and restart speculation from
      them. The budget and the recorded steps are kept as they are. */
  function Rotate(d: Dice, s: Spin): (r: Dice)
    ensures F.WellFormed(d.faces) ==> F.WellFormed(r.faces) && TopFace(r) == TopFace(d)
    ensures F.WellFormed(d.faces) ==> CurrentPointingDirection(r) != CurrentPointingDirection(d)
    ensures F.WellFormed(d.faces) ==> F.Spun(d.faces, r.faces)
    ensures r.temporaryFaces == r.faces
    ensures r.currentCell == d.currentCell && r.id == d.id && r.owner == d.owner
    ensures r.moveCount == d.moveCount && r.movementTracking == d.movementTracking
    ensures Invariant(d) && |d.movementTracking| == 0 ==> Invariant(r)
  {
    var spun := F.Rotate(d.faces, s);
    d.(faces := spun, temporaryFaces := spun)
  }

  /** `Dice.roll`: draw a fresh arrangement and reset the budget to its top
      face. The recorded steps are kept as they are. */
  function Roll(d: Dice, nullPick: nat, picks: seq<nat>): (r: Dice)
    requires nullPick < 2 && F.ValidPicks(picks)
    ensures F.WellFormed(r.faces) && r.temporaryFaces == r.faces
    ensures r.moveCount == TopFace(r)
    ensures r.movementTracking == d.movementTracking && r.currentCell == d.currentCell
    ensures r.id == d.id && r.owner == d.owner
    ensures |d.movementTracking| == 0 ==> Invariant(r)
  {
    var rolled := F.Roll(nullPick, picks);
    d.(faces := rolled, moveCount := F.Top(rolled), temporaryFaces := rolled)
  }

  /** `Dice.simulatedRoll`: tumble the committed faces and reset the budget
      to the new top face. The recorded steps are kept as they are. */
  function SimulatedRoll(d: Dice, draws: seq<F.Tumble>): (r: Dice)
    ensures F.WellFormed(d.faces) ==> F.WellFormed(r.faces)
    ensures r.temporaryFaces == r.faces && r.moveCount == TopFace(r)
    ensures r.movementTracking == d.movementTracking && r.currentCell == d.currentCell
    ensures r.id == d.id && r.owner == d.owner
    ensures F.WellFormed(d.faces) && |d.movementTracking| == 0 ==> Invariant(r)
  {
    var tumbled := F.SimulatedRoll(d.faces, draws);
    d.(faces := tumbled, moveCount := F.Top(tumbled), temporaryFaces := tumbled)
  }

  /** `removeFromCell`. */
  function RemoveFromCell(d: Dice): (r: Dice)
    ensures r.currentCell == None
    ensures r.(currentCell := d.currentCell) == d
  {
    d.(currentCell := None)
  }

  /** Unwinding appended steps undoes the newer ones first, then the older
      ones from where that left off. */
  lemma {:induction false} UnwindAppend(g: F.Faces, steps: seq<TrackedMove>, more: seq<TrackedMove>)
    ensures Unwind(g, more).Err? ==> Unwind(g, steps + more) == Unwind(g, more)
    ensures Unwind(g, more).Ok? ==> Unwind(g, steps + more) == Unwind(Unwind(g, more).value, steps)
    decreases |more|
  {
    var all := steps + more;
    if |more| == 0 {
      assert all == steps;
    } else {
      var older := more[..|more| - 1];
      assert Last(all) == Last(more);
      assert all[..|all| - 1] == steps + older;
      var tipped := F.Move(g, Last(more).undo);
      if tipped.Ok? {
        UnwindAppend(tipped.value, steps, older);
      }
    }
  }

  /** Recording a step together with a direction that tips its result back
      does not change where the recorded steps unwind to. */
  lemma {:induction false} PushUnwinds(f: F.Faces, g: F.Faces, steps: seq<TrackedMove>, step: TrackedMove)
    requires F.Move(g, step.undo) == Ok(f)
    ensures Unwind(g, steps + [step]) == Unwind(f, steps)
  {
    UnwindAppend(g, steps, [step]);
  }

  /** A tentative step keeps the planner invariant: the step it records is
      undone by tipping back the opposite way. */
  lemma {:induction false} TryMoveToKeepsInvariant(b: Cells.Board, d: Dice, dir: Direction)
    requires Located(b, d) && Invariant(d)
    ensures Invariant(TryMoveTo(b, d, dir).state)
  {
    var r := TryMoveTo(b, d, dir);
    if r.result.Ok? {
      F.MoveRoundTrip(d.temporaryFaces, dir);
      PushUnwinds(d.temporaryFaces, r.state.temporaryFaces, d.movementTracking, Last(r.state.movementTracking));
    }
  }

  /** Under the invariant an undo never fails once a step was taken, and it
      keeps the invariant. */
  lemma UndoMoveKeepsInvariant(d: Dice)
    requires Invariant(d) && |d.movementTracking| > 0
    ensures UndoMove(d).result.Ok?
    ensures Invariant(UndoMove(d).state)
  {
  }

  /** Undo right after a successful tentative step restores the die exactly
      and hands back the cell that step reached, not the one it came from. */
  lemma TryThenUndo(b: Cells.Board, d: Dice, dir: Direction)
    requires Located(b, d) && F.WellFormed(d.temporaryFaces)
    requires TryMoveTo(b, d, dir).result.Ok?
    ensures UndoMove(TryMoveTo(b, d, dir).state) == Effect(d, Ok(NextNeighbor(b, d, dir).cell))
  {
    var r := TryMoveTo(b, d, dir);
    F.MoveRoundTrip(d.temporaryFaces, dir);
    assert r.state.movementTracking[..|d.movementTracking|] == d.movementTracking;
  }

  /** After a step the next one leads on from the cell just reached: the
      newest tracked cell, not the cell the die rests on. */
  lemma TryMoveToAdvances(b: Cells.Board, d: Dice, dir: Direction, dir2: Direction)
    requires Cells.Valid(b) && Located(b, d)
    requires TryMoveTo(b, d, dir).result.Ok?
    ensures NextNeighbor(b, TryMoveTo(b, d, dir).state, dir2)
            == Cells.GetNeighbor(b, NextNeighbor(b, d, dir).cell, dir2)
  {
  }

  /** The first step of a walk leaves from the cell the die rests on: with
      budget left and a legal tip it reaches the neighbour linked that way. */
  lemma FirstStepFromCell(b: Cells.Board, d: Dice, dir: Direction, c: CellID, x: CellID)
    requires Located(b, d) && |d.movementTracking| == 0 && d.currentCell == Some(c)
    requires b[c].neighbors.Get(dir) == Cells.Linked(x)
    requires d.moveCount != 0 && F.Move(d.temporaryFaces, dir).Ok?
    ensures TryMoveTo(b, d, dir).result.Ok?
    ensures TryMoveTo(b, d, dir).state.movementTracking == [TrackedMove(x, Inverse(dir))]
  {
  }

  /** A planning command as the turn logic issues them. */
  datatype Command = Try(dir: Direction) | Undo | Reset

  /** Issue one command, keeping whatever state it leaves. */
  function Step(b: Cells.Board, d: Dice, c: Command): (r: Dice)
    requires Cells.Valid(b) && Located(b, d)
    ensures Located(b, r)
  {
    match c
    case Try(dir) => TryMoveTo(b, d, dir).state
    case Undo => UndoMove(d).state
    case Reset => ResetTemporaryMoves(d)
  }

  /** Issue the commands in order. */
  function Walk(b: Cells.Board, d: Dice, cmds: seq<Command>): (r: Dice)
    requires Cells.Valid(b) && Located(b, d)
    ensures Located(b, r)
    decreases |cmds|
  {
    if |cmds| == 0 then d else Walk(b, Step(b, d, cmds[0]), cmds[1..])
  }

  /** Through any sequence of tentative steps, undos and resets the planner
      invariant holds, the committed faces stay untouched, and the budget
      stays between 0 and the top face. */
  lemma {:induction false} WalkKeepsInvariant(b: Cells.Board, d: Dice, cmds: seq<Command>)
    requires Cells.Valid(b) && Located(b, d) && Invariant(d)
    ensures Invariant(Walk(b, d, cmds))
    ensures Walk(b, d, cmds).faces == d.faces
    ensures 0 <= Walk(b, d, cmds).moveCount <= TopFace(d) <= 4
    decreases |cmds|
  {
    if |cmds| > 0 {
      var next := Step(b, d, cmds[0]);
      match cmds[0] {
        case Try(dir) => TryMoveToKeepsInvariant(b, d, dir);
        case Undo =>
          if |d.movementTracking| > 0 {
            UndoMoveKeepsInvariant(d);
          }
        case Reset =>
      }
      WalkKeepsInvariant(b, next, cmds[1..]);
    }
  }

  /** `roll` and `simulatedRoll` reset the budget to the new top face but
      keep the recorded steps, so rolling in the middle of a walk breaks the
      budget: the steps already taken are no longer paid for. */
  lemma RollDuringWalkBreaksBudget(d: Dice, nullPick: nat, picks: seq<nat>, draws: seq<F.Tumble>)
    requires nullPick < 2 && F.ValidPicks(picks)
    requires |d.movementTracking| > 0
    ensures !Budget(Roll(d, nullPick, picks))
    ensures !Budget(SimulatedRoll(d, draws))
  {
  }
}

=== FILE: players.dfy ===
/** Players (class `Player`): the dice a player owns, keyed by id, and the
    bookkeeping of which of them are on the board or lost. The dice records
    themselves live with the board; a player keeps their ids. */
module Players {
  import opened Types
  import Planner

  /** The default number of dice per player. */
  const DefaultDiceCount := 4

  datatype Player = Player(id: PlayerId, dice: set<DiceId>, lostDice: set<DiceId>, diceOnBoard: set<DiceId>)

  /** The id of a player's `num`-th die, `playerNumber * 10 + num`. */
  function DiceIdOf(p: PlayerId, num: int): DiceId {
    p * 10 + num
  }

  /** The dice the constructor creates, one per index `0 <= i < n`, each a
      fresh die owned by the player. */
  function Roster(p: PlayerId, n: int): (m: map<DiceId, Planner.Dice>)
    ensures forall k :: k in m <==> DiceIdOf(p, 0) <= k < DiceIdOf(p, n)
    ensures forall k :: k in m ==> m[k] == Planner.NewDice(k, p)
    ensures |m| == if n <= 0 then 0 else n
    decreases n
  {
    if n <= 0 then map[]
    else Roster(p, n - 1)[DiceIdOf(p, n - 1) := Planner.NewDice(DiceIdOf(p, n - 1), p)]
  }

  /** The constructor: the player with its dice and none of them placed or
      lost, together with the dice it created. */
  function NewPlayer(p: PlayerId, n: int): (r: (Player, map<DiceId, Planner.Dice>))
    ensures r.0.id == p && r.0.dice == r.1.Keys
    ensures r.0.lostDice == {} && r.0.diceOnBoard == {}
    ensures forall k :: k in r.1 <==> DiceIdOf(p, 0) <= k < DiceIdOf(p, n)
    ensures forall k :: k in r.1 ==> r.1[k] == Planner.NewDice(k, p)
    ensures forall k :: k in r.1 ==>
              && r.1[k].id == k && r.1[k].owner == p && r.1[k].currentCell == None
              && Planner.Invariant(r.1[k])
  {
    var m := Roster(p, n);
    (Player(p, m.Keys, {}, {}), m)
  }

  /** `loseDice`: the die leaves the board and joins the lost dice. */
  function LoseDice(pl: Player, k: DiceId): (r: Player)
    ensures k !in r.diceOnBoard && k in r.lostDice
    ensures r.diceOnBoard + {k} == pl.diceOnBoard + {k}
    ensures r.lostDice - {k} == pl.lostDice - {k}
    ensures r.id == pl.id && r.dice == pl.dice
  {
    pl.(diceOnBoard := pl.diceOnBoard - {k}, lostDice := pl.lostDice + {k})
  }

  /** `placeDice`: the die joins the dice on the board. Nothing stops a
      lost die from being placed again. */
  function PlaceDice(pl: Player, k: DiceId): (r: Player)
    ensures k in r.diceOnBoard && r.diceOnBoard - {k} == pl.diceOnBoard - {k}
    ensures r.id == pl.id && r.dice == pl.dice && r.lostDice == pl.lostDice
  {
    pl.(diceOnBoard := pl.diceOnBoard + {k})
  }

  /** `getDice`: look up the `num`-th die by its id. */
  function GetDice(pl: Player, num: int): (r: Option<DiceId>)
    ensures r.Some? <==> DiceIdOf(pl.id, num) in pl.dice
    ensures r.Some? ==> r.value == DiceIdOf(pl.id, num) && r.value in pl.dice
  {
    if DiceIdOf(pl.id, num) in pl.dice then Some(DiceIdOf(pl.id, num)) else None
  }

  /** A die is never both on the board and lost. */
  ghost predicate Disjoint(pl: Player) {
    pl.diceOnBoard !! pl.lostDice
  }

  /** A new player finds its `num`-th die exactly for `0 <= num < n`, and
      different indices find different dice. */
  lemma {:induction false} GetDiceFindsRoster(p: PlayerId, n: int, num: int, other: int)
    ensures GetDice(NewPlayer(p, n).0, num).Some? <==> 0 <= num < n
    ensures GetDice(NewPlayer(p, n).0, num).Some? && GetDice(NewPlayer(p, n).0, other).Some? && num != other ==>
              GetDice(NewPlayer(p, n).0, num) != GetDice(NewPlayer(p, n).0, other)
  {
    var m := Roster(p, n);
    assert DiceIdOf(p, num) in m <==> 0 <= num < n;
  }

  /** With the default count a new player owns the four dice `10p` to
      `10p + 3`. */
  lemma DefaultRoster(p: PlayerId)
    ensures forall k :: k in NewPlayer(p, DefaultDiceCount).0.dice <==> p * 10 <= k <= p * 10 + 3
    ensures |NewPlayer(p, DefaultDiceCount).1| == 4
  {
  }

  /** Losing a die keeps the board and the lost dice apart; placing one does
      too, unless it had been lost. Losing absorbs an earlier placement and a
      repeated loss. */
  lemma PlacementBookkeeping(pl: Player, k: DiceId)
    ensures Disjoint(pl) ==> Disjoint(LoseDice(pl, k))
    ensures Disjoint(pl) && k !in pl.lostDice ==> Disjoint(PlaceDice(pl, k))
    ensures k in pl.lostDice ==> !Disjoint(PlaceDice(pl, k))
    ensures LoseDice(PlaceDice(pl, k), k) == LoseDice(pl, k)
    ensures LoseDice(LoseDice(pl, k), k) == LoseDice(pl, k)
  {
  }
}

=== FILE: table.dfy ===
/** Dice on the board: the occupancy rules of a cell (the `dice` setter,
    `diceFits`, `removeDice`) and the operations of a die that move it
    between cells (`moveTo`, `fixTemporaryFaces`). The mutual references of
    the code become two lookups: a cell's `content` names a die id and a
    die's `currentCell` names a cell id. */
module Table {
  import opened Types
  import F = DiceFaces
  import Cells
  import Planner

  datatype World = World(cells: Cells.Board, dice: map<DiceId, Planner.Dice>)

  /** Every id a cell or a die refers to names an existing object. */
  ghost predicate Refs(w: World) {
    && (forall c :: c in w.cells && w.cells[c].content.Some? ==> w.cells[c].content.value in w.dice)
    && (forall k :: k in w.dice && w.dice[k].currentCell.Some? ==> w.dice[k].currentCell.value in w.cells)
  }

  /** The two lookups agree: a cell holds a die exactly when that die rests
      on the cell. */
  ghost predicate Consistent(w: World) {
    && Refs(w)
    && (forall c :: c in w.cells && w.cells[c].content.Some? ==>
          w.dice[w.cells[c].content.value].currentCell == Some(c))
    && (forall k :: k in w.dice && w.dice[k].currentCell.Some? ==>
          w.cells[w.dice[k].currentCell.value].content == Some(k))
  }

  /** Replace a die's record by one resting on the same cell. */
  function Restate(w: World, k: DiceId, d: Planner.Dice): (r: World)
    requires k in w.dice && d.currentCell == w.dice[k].currentCell
    ensures r.cells == w.cells && r.dice.Keys == w.dice.Keys && r.dice[k] == d
    ensures forall j :: j in w.dice && j != k ==> r.dice[j] == w.dice[j]
    ensures Refs(w) ==> Refs(r)
    ensures Consistent(w) ==> Consistent(r)
  {
    w.(dice := w.dice[k := d])
  }

  /** `diceFits`: the die's committed pointing direction matches the cell's,
      so a legal die fits an upward cell exactly when its down slot holds the
      0. */
  predicate DiceFits(w: World, c: CellID, k: DiceId)
    requires c in w.cells && k in w.dice
    ensures F.WellFormed(w.dice[k].faces) ==>
              (DiceFits(w, c, k) <==> (w.cells[c].pointing == PointsUp <==> w.dice[k].faces[4] == 0))
  {
    Planner.CurrentPointingDirection(w.dice[k]) == w.cells[c].pointing
  }

  /** The `dice` setter: an occupied cell refuses any assignment, even of
      null; a die that does not fit is refused; otherwise the cell holds the
      given die, or nothing. A refusal changes nothing. */
  function SetDice(w: World, c: CellID, die: Option<DiceId>): (r: Effect<World, ()>)
    requires c in w.cells
    requires die.Some? ==> die.value in w.dice
    ensures w.cells[c].content.Some? ==> r == Effect(w, Err(AlreadyFull))
    ensures w.cells[c].content.None? && die.Some? && !DiceFits(w, c, die.value) ==>
              r == Effect(w, Err(DiceDoesntFit))
    ensures r.result.Ok? <==> w.cells[c].content.None? && (die.Some? ==> DiceFits(w, c, die.value))
    ensures r.state.dice == w.dice && r.state.cells.Keys == w.cells.Keys
    ensures r.result.Ok? ==> r.state.cells[c].content == die
    ensures forall x :: x in w.cells && x != c ==> r.state.cells[x] == w.cells[x]
    ensures r.state.cells[c] == w.cells[c].(content := r.state.cells[c].content)
  {
    if w.cells[c].content.Some? then Effect(w, Err(AlreadyFull))
    else if die.Some? && !DiceFits(w, c, die.value) then Effect(w, Err(DiceDoesntFit))
    else Effect(w.(cells := w.cells[c := w.cells[c].(content := die)]), Ok(()))
  }

  /** `removeDice`: take the die out of the cell and clear the die's cell;
      an empty cell is refused. */
  function RemoveDice(w: World, c: CellID): (r: Effect<World, DiceId>)
    requires c in w.cells
    requires w.cells[c].content.Some? ==> w.cells[c].content.value in w.dice
    ensures w.cells[c].content.None? ==> r == Effect(w, Err(EmptyCell))
    ensures r.state.cells.Keys == w.cells.Keys && r.state.dice.Keys == w.dice.Keys
    ensures w.cells[c].content.Some? ==>
              && r.result == Ok(w.cells[c].content.value)
              && r.state.cells[c].content == None
              && r.state.dice[r.result.value].currentCell == None
    ensures forall x :: x in w.cells && x != c ==> r.state.cells[x] == w.cells[x]
    ensures w.cells[c].content.Some? ==>
              r.state.dice[r.result.value] == Planner.RemoveFromCell(w.dice[r.result.value])
    ensures forall k :: k in w.dice && Some(k) != w.cells[c].content ==> r.state.dice[k] == w.dice[k]
    ensures Consistent(w) ==> Consistent(r.state)
  {
    match w.cells[c].content
    case None => Effect(w, Err(EmptyCell))
    case Some(k) =>
      var w' := World(w.cells[c := w.cells[c].(content := None)],
                      w.dice[k := Planner.RemoveFromCell(w.dice[k])]);
      Effect(w', Ok(k))
  }

  /** The second half of `Dice.moveTo`: the cell takes the die, and the die
      records the cell and drops its tentative steps. A refusal by the cell
      changes nothing. */
  function Occupy(w: World, k: DiceId, c: CellID): (r: Effect<World, ()>)
    requires k in w.dice && c in w.cells
    ensures r.state.cells.Keys == w.cells.Keys && r.state.dice.Keys == w.dice.Keys
    ensures r.state.dice[k] == w.dice[k].(currentCell := r.state.dice[k].currentCell,
                                          movementTracking := r.state.dice[k].movementTracking)
    ensures r.result.Ok? <==> w.cells[c].content.None? && DiceFits(w, c, k)
    ensures r.result.Err? ==> r.state == w
    ensures w.cells[c].content.Some? ==> r.result == Err(AlreadyFull)
    ensures w.cells[c].content.None? && !DiceFits(w, c, k) ==> r.result == Err(DiceDoesntFit)
    ensures r.result.Ok? ==>
              && r.state.dice[k].currentCell == Some(c)
              && r.state.cells[c].content == Some(k)
              && r.state.dice[k].movementTracking == []
    ensures forall j :: j in w.dice && j != k ==> r.state.dice[j] == w.dice[j]
    ensures forall x :: x in w.cells && x != c ==> r.state.cells[x] == w.cells[x]
    ensures Consistent(w) && w.dice[k].currentCell.None? ==> Consistent(r.state)
  {
    var placed := SetDice(w, c, Some(k));
    if placed.result.Err? then placed
    else
      var w2 := placed.state;
      var d := w2.dice[k].(currentCell := Some(c), movementTracking := []);
      Effect(w2.(dice := w2.dice[k := d]), Ok(()))
  }

  /** `Dice.moveTo`: leave the current cell, then occupy `c`. Occupancy and
      fit are checked by the cell, after the die has already left its old
      cell; the tentative steps are dropped only on success. */
  function MoveTo(w: World, k: DiceId, c: CellID): (r: Effect<World, ()>)
    requires k in w.dice && c in w.cells && Refs(w)
    ensures r.state.cells.Keys == w.cells.Keys && r.state.dice.Keys == w.dice.Keys
    ensures k in r.state.dice
    ensures r.state.dice[k] == w.dice[k].(currentCell := r.state.dice[k].currentCell,
                                          movementTracking := r.state.dice[k].movementTracking)
    ensures r.result.Err? ==> r.state.dice[k].movementTracking == w.dice[k].movementTracking
    ensures Consistent(w) && r.result.Err? && w.dice[k].currentCell.Some? ==>
              && r.state.dice[k].currentCell == None
              && r.state.cells[w.dice[k].currentCell.value].content == None
    ensures r.result.Ok? ==>
              && r.state.dice[k].currentCell == Some(c)
              && r.state.cells[c].content == Some(k)
              && r.state.dice[k].movementTracking == []
    ensures Consistent(w) ==> Consistent(r.state)
    ensures Consistent(w) ==>
              (r.result.Ok? <==>
                 && (w.cells[c].content.None? || w.cells[c].content == Some(k))
                 && DiceFits(w, c, k))
    ensures Consistent(w) && w.cells[c].content.Some? && w.cells[c].content != Some(k) ==>
              r.result == Err(AlreadyFull)
    ensures Consistent(w) && (w.cells[c].content.None? || w.cells[c].content == Some(k)) && !DiceFits(w, c, k) ==>
              r.result == Err(DiceDoesntFit)
    ensures Consistent(w) ==> forall j :: j in w.dice && j != k ==> r.state.dice[j] == w.dice[j]
    ensures forall x :: x in w.cells && x != c && Some(x) != w.dice[k].currentCell ==>
              r.state.cells[x] == w.cells[x]
  {
    var left :=
      if w.dice[k].currentCell.Some? then RemoveDice(w, w.dice[k].currentCell.value)
      else Effect(w, Ok(k));
    if left.result.Err? then Effect(left.state, Err(left.result.error))
    else
      var w1 := left.state;
      assert w1.dice[k].faces == w.dice[k].faces;
      assert w1.cells[c].pointing == w.cells[c].pointing;
      Occupy(w1, k, c)
  }

  /** `fixTemporaryFaces`: commit a walk whose budget is spent. The committed
      faces are overwritten first; the die then moves to the newest tentative
      cell, and only if that succeeds are the steps cleared and the budget
      reset to the new top face. */
  function FixTemporaryFaces(w: World, k: DiceId): (r: Effect<World, ()>)
    requires k in w.dice && Refs(w) && Planner.Located(w.cells, w.dice[k])
    ensures w.dice[k].moveCount != 0 ==> r == Effect(w, Err(HasMovesLeft))
    ensures r.state.cells.Keys == w.cells.Keys && r.state.dice.Keys == w.dice.Keys
    ensures w.dice[k].moveCount == 0 ==> r.state.dice[k].faces == w.dice[k].temporaryFaces
    ensures w.dice[k].moveCount == 0 ==>
              r.state.dice[k] == w.dice[k].(faces := w.dice[k].temporaryFaces,
                                            currentCell := r.state.dice[k].currentCell,
                                            movementTracking := r.state.dice[k].movementTracking,
                                            moveCount := r.state.dice[k].moveCount)
    ensures r.result.Err? ==>
              && r.state.dice[k].moveCount == w.dice[k].moveCount
              && r.state.dice[k].movementTracking == w.dice[k].movementTracking
    ensures Consistent(w) && w.dice[k].moveCount == 0 && |w.dice[k].movementTracking| > 0 &&
            r.result.Err? && w.dice[k].currentCell.Some? ==>
              && r.state.dice[k].currentCell == None
              && r.state.cells[w.dice[k].currentCell.value].content == None
    ensures r.result.Ok? ==>
              && |w.dice[k].movementTracking| > 0
              && r.state.dice[k].currentCell == Some(Planner.Last(w.dice[k].movementTracking).cell)
              && r.state.cells[r.state.dice[k].currentCell.value].content == Some(k)
              && r.state.dice[k].movementTracking == []
              && r.state.dice[k].moveCount == Planner.TopFace(r.state.dice[k])
    ensures w.dice[k].moveCount == 0 && |w.dice[k].movementTracking| == 0 ==>
              r.result == Err(UndefinedAccess)
    ensures Consistent(w) ==> Consistent(r.state)
    ensures Consistent(w) && w.dice[k].moveCount == 0 && |w.dice[k].movementTracking| > 0 ==>
              var t := Planner.Last(w.dice[k].movementTracking).cell;
              (r.result.Ok? <==>
                 && (w.cells[t].content.None? || w.cells[t].content == Some(k))
                 && Planner.TemporaryPointingDirection(w.dice[k]) == w.cells[t].pointing)
    ensures Consistent(w) && w.dice[k].moveCount == 0 && |w.dice[k].movementTracking| > 0 ==>
              var t := Planner.Last(w.dice[k].movementTracking).cell;
              && (w.cells[t].content.None? || w.cells[t].content == Some(k))
              && Planner.TemporaryPointingDirection(w.dice[k]) != w.cells[t].pointing ==>
              r.result == Err(DiceDoesntFit)
    ensures Consistent(w) && w.dice[k].moveCount == 0 && |w.dice[k].movementTracking| > 0 ==>
              var t := Planner.Last(w.dice[k].movementTracking).cell;
              w.cells[t].content.Some? && w.cells[t].content != Some(k) ==>
              r.result == Err(AlreadyFull)
    ensures Consistent(w) ==> forall j :: j in w.dice && j != k ==> r.state.dice[j] == w.dice[j]
    ensures forall x :: x in w.cells && Some(x) != w.dice[k].currentCell
                        && (|w.dice[k].movementTracking| == 0 || x != Planner.Last(w.dice[k].movementTracking).cell) ==>
              r.state.cells[x] == w.cells[x]
  {
    var d := w.dice[k];
    if !Planner.CanFinishMoving(d) then Effect(w, Err(HasMovesLeft))
    else
      var w1 := Restate(w, k, d.(faces := d.temporaryFaces));
      if |d.movementTracking| == 0 then Effect(w1, Err(UndefinedAccess))
      else
        var moved := MoveTo(w1, k, Planner.Last(d.movementTracking).cell);
        if moved.result.Err? then moved
        else
          var w2 := moved.state;
          var d2 := w2.dice[k].(movementTracking := [], moveCount := Planner.TopFace(w2.dice[k]));
          Effect(Restate(w2, k, d2), Ok(()))
  }

  /** Removing a die right after placing it into an empty cell hands that
      die back and leaves the world as it was, when the die rested nowhere. */
  lemma SetThenRemove(w: World, c: CellID, k: DiceId)
    requires c in w.cells && k in w.dice && w.dice[k].currentCell == None
    requires SetDice(w, c, Some(k)).result.Ok?
    ensures RemoveDice(SetDice(w, c, Some(k)).state, c) == Effect(w, Ok(k))
  {
    var placed := SetDice(w, c, Some(k)).state;
    assert placed.dice[k := Planner.RemoveFromCell(placed.dice[k])] == w.dice;
    assert placed.cells[c := placed.cells[c].(content := None)] == w.cells;
  }

  /** Under the planner invariant a die whose budget is spent has taken at
      least one step, since a legal top face is never 0; so the commit never
      reaches the empty-steps failure. */
  lemma SpentBudgetHasSteps(d: Planner.Dice)
    requires Planner.Invariant(d) && Planner.CanFinishMoving(d)
    ensures 0 < |d.movementTracking| <= 4
  {
  }

  /** Committing a finished walk succeeds when the last tentative cell is free
      (or already holds this die) and points the way the speculative faces
      do; the die then rests there with its speculative faces committed, a
      fresh budget, and the planner invariant and the board consistency
      restored. */
  lemma FixCommitsWalk(w: World, k: DiceId)
    requires Consistent(w) && k in w.dice && Planner.Located(w.cells, w.dice[k])
    requires Planner.Invariant(w.dice[k]) && Planner.CanFinishMoving(w.dice[k])
    requires |w.dice[k].movementTracking| > 0
    requires var t := Planner.Last(w.dice[k].movementTracking).cell;
             && (w.cells[t].content.None? || w.cells[t].content == Some(k))
             && Planner.TemporaryPointingDirection(w.dice[k]) == w.cells[t].pointing
    ensures var r := FixTemporaryFaces(w, k);
            && r.result.Ok?
            && Planner.Invariant(r.state.dice[k])
            && r.state.dice[k].faces == w.dice[k].temporaryFaces
            && Consistent(r.state)
  {
    var d := w.dice[k];
    var w1 := Restate(w, k, d.(faces := d.temporaryFaces));
    var t := Planner.Last(d.movementTracking).cell;
    assert DiceFits(w1, t, k);
    var moved := MoveTo(w1, k, t);
    assert moved.result.Ok?;
    assert Planner.Invariant(FixTemporaryFaces(w, k).state.dice[k]);
  }

  /** The commit is not atomic: when the target cell refuses the die, held
      by another die or pointing the other way, the commit fails having
      already overwritten the committed faces and taken the die off its
      cell, which is left empty, with the tentative steps still recorded. */
  lemma FixIsNotAtomic(w: World, k: DiceId)
    requires Consistent(w) && k in w.dice && Planner.Located(w.cells, w.dice[k])
    requires Planner.CanFinishMoving(w.dice[k]) && |w.dice[k].movementTracking| > 0
    requires var t := Planner.Last(w.dice[k].movementTracking).cell;
             || (w.cells[t].content.Some? && w.cells[t].content != Some(k))
             || Planner.TemporaryPointingDirection(w.dice[k]) != w.cells[t].pointing
    ensures var r := FixTemporaryFaces(w, k);
            var t := Planner.Last(w.dice[k].movementTracking).cell;
            && r.result == (if w.cells[t].content.Some? && w.cells[t].content != Some(k)
                            then Err(AlreadyFull) else Err(DiceDoesntFit))
            && r.state.dice[k].faces == w.dice[k].temporaryFaces
            && r.state.dice[k].currentCell == None
            && r.state.dice[k].movementTracking == w.dice[k].movementTracking
            && (w.dice[k].currentCell.Some? ==> r.state.cells[w.dice[k].currentCell.value].content == None)
  {
    var d := w.dice[k];
    var w1 := Restate(w, k, d.(faces := d.temporaryFaces));
    var t := Planner.Last(d.movementTracking).cell;
    if d.currentCell.Some? {
      var left := RemoveDice(w1, d.currentCell.value);
      if w.cells[t].content.Some? && w.cells[t].content != Some(k) {
        assert d.currentCell.value != t;
        assert left.state.cells[t] == w.cells[t];
      }
    }
  }
}

=== FILE: types.dfy ===
/** Vocabulary shared by the die, the planner and the board: directions,
    orientations, error kinds and the failure-carrying result types. */
module Types {

  /** Board cells are identified by their numeric id (row * 10 + column). */
  type CellID = int

  /** A die's id. The code renders `playerNumber * 10 + index` as a decimal
      string; that rendering is injective, so the integer itself is the key. */
  type DiceId = int

  type PlayerId = int

  datatype Option<+T> = None | Some(value: T)

  /** The four neighbour directions of a triangular cell (`NeighborType`). */
  datatype Direction = Up | Down | Left | Right

  predicate IsVertical(d: Direction) {
    d == Up || d == Down
  }

  /** The argument of a spin: the code accepts only "left" or "right". */
  datatype Spin = SpinLeft | SpinRight

  /** Where the apex of a die or of a cell points. */
  datatype Pointing = PointsUp | PointsDown

  /** Every condition the rules engine throws on. `UndefinedAccess` stands for
      the TypeError raised when the code reads a property of `undefined`. */
  datatype Error =
    | CantMoveUp
    | CantMoveDown
    | InvalidDirection
    | NoMoves
    | NoMovesLeft
    | HasMovesLeft
    | AlreadyFull
    | EmptyCell
    | NeighborAlreadySet
    | InvalidNeighbor
    | DiceDoesntFit
    | UndefinedAccess

  /** The outcome of an operation that either returns a value or throws. */
  datatype Result<+T> = Ok(value: T) | Err(error: Error)

  /** The state left behind by an operation that mutates as it goes, together
      with its outcome: a throw part-way leaves the mutations made before it. */
  datatype Effect<+S, +T> = Effect(state: S, result: Result<T>)

  /** `faceDirectionInverter`, restricted to the neighbour directions. */
  function Inverse(d: Direction): (r: Direction)
    ensures r != d
    ensures IsVertical(r) <==> IsVertical(d)
  {
    match d
    case Left => Right
    case Right => Left
    case Up => Down
    case Down => Up
  }

  /** The inverter is an involution without fixed points that keeps a
      direction on its own axis. */
  lemma InverseIsInvolution(d: Direction)
    ensures Inverse(Inverse(d)) == d
    ensures Inverse(d) != d
    ensures IsVertical(Inverse(d)) <==> IsVertical(d)
  {
  }
}
